=== FILE: README.md ===
# q-model core in Dafny

q-model is a declarative data-modelling layer in TypeScript. A *FieldSpec*
wraps a base type schema (a zod schema) and a set of options: `required`,
`nullable`, `default`, `displayName` and `name`. From them it builds a refined
validation rule for each call. A *model* is a table of FieldSpecs plus
metadata. A model can be derived with `create`, `extend`, `merge` and `omit`.
It validates a record of values, and calling it produces an instance with one
field instance per field. Building a model names its fields after their keys.
It also registers the model under `meta.name` in a *registry*, which is a named
table of models with an overwrite policy. Two further components are modelled.
One is `FilterUtils`, a comparison and filtering utility over records. The
other is `MemoryStorage`, a size-bounded in-memory cache with expiry times.

The modules follow the source:

- `Wrappers`: the `Option` and `Result` types.
- `JsValue`: JavaScript values, `typeof`, truthiness, `||`, and calling a
  default provider.
- `Schema`: the five zod combinators the fields use, as a rule tree with a
  parser over an abstract base type check.
- `Field`: option spreads, `transformSchema`, the FieldSpec (`ModelFieldFactory`),
  field instances and both `validate`s.
- `Record`: insertion-ordered objects and their spreads.
- `Registry`: `ModelRegistry` and the process-wide registry cache.
- `Model`: `ModelFactory`, covering construction, composition, validation and
  instances. One model covers both `packages/core/src/lib/model.ts` and
  `libs/core/src/lib/model.ts`. The two agree on construction, composition,
  validation and instances. Only the `packages` version implements
  `getField` and `getFieldNames` (lines 85-91), attaches a model manager, and
  adds the `save`/`update`/`delete` stubs; `libs` only declares the first two
  in its types.
- `Filter`: `compareValues`, `filterItems` and `multiFilter`.
- `MemoryCache`: `MemoryStorage`.
- `Scenarios`: the decisions the repository's test suites pin down, with a
  string base type.

A field whose `required` option was never set displays `required: true`
(`required || true`), which suggests that required is the default. Validation
does otherwise, and the model follows the code. `transformSchema` wraps the
rule in `optional` whenever `options.required` is falsy, so such a field
accepts `undefined`.

A FieldSpec is shared by reference across models, and its name is mutable.
The model therefore keeps the names in a world state, as a map from FieldSpec
identity to its name and display name, next to the registry cache. The
immutable part of a FieldSpec is a `Field` value held by the models.

## Model

| member | source | states |
|---|---|---|
| Schema.Parse | packages/core/src/lib/field.ts:168-188 | the combinators never change a defined input; they replace `undefined` only by one of the rule's own defaults |
| Field.TransformSchema | packages/core/src/lib/field.ts:161-191 | the refined rule has a default exactly when `default` is truthy, and that default is the called (or literal) default |
| Field.AcceptsMatchesExpected | packages/core/src/lib/field.ts:161-191 | the refined rule accepts a value exactly as the independent decision table says: `null` by `nullable`, `undefined` by `required` and the default, others by the base check |
| Field.NullAcceptedIffNullable | packages/core/src/lib/field.ts:176-180 | `null` is accepted iff the merged `nullable` is truthy, for every base check and every other option |
| Field.UndefinedAcceptedUnlessRequired | packages/core/src/lib/field.ts:182-183 | a falsy or absent `required` makes `undefined` valid |
| Field.UndefinedRejectedWhenRequired | packages/core/src/lib/field.ts:176-187 | with `required` truthy and no truthy default, `undefined` is refused, even when `nullable` is truthy |
| Field.DefaultSubstitutes | packages/core/src/lib/field.ts:168-174 | a truthy default stands in for `undefined`, and the base check decides on the default |
| Field.FalsyDefaultIgnored | packages/core/src/lib/field.ts:168 | a falsy default builds the same rule as no default |
| Field.MismatchRejected | packages/core/src/lib/field.ts:176-188 | a defined value the base check refuses is refused under every option set |
| Field.OnlyThreeKeysMatter | packages/core/src/lib/field.ts:161-191 | the rule depends only on the default value and the truthiness of `nullable` and `required` |
| Field.SpreadAssociative | packages/core/src/lib/field.ts:31-34 | layering option objects by spreads is associative |
| Field.SpreadIdentity | packages/core/src/lib/field.ts:31-34 | a missing layer (`\|\| {}`) changes nothing |
| Field.SpreadAbsorbs | packages/core/src/lib/model.ts:117-122 | spreading a field's own options again over a merge that already holds them changes nothing |
| Field.Define | packages/core/src/lib/field.ts:30-58 | a FieldSpec's options are the factory options overridden by the definition options, with `name` taken out as the initial name; a truthy `displayName` is kept, and a falsy one becomes the capitalised initial name |
| Field.DisplayedRequired | packages/core/src/lib/field.ts:43 | the displayed `required` flag is always truthy, and `true` for an absent or boolean setting |
| Field.DisplayedRequiredHasNoEffect | packages/core/src/lib/field.ts:43 | a field that displays `required: true` still accepts `undefined` when `required` was never set |
| Field.SetName | packages/core/src/lib/field.ts:67-71 | a truthy name is kept and a falsy one becomes the candidate; a truthy display name is kept and a falsy one becomes the capitalised candidate; a nonempty candidate always leaves a truthy name |
| Field.SetNameFirstWins | packages/core/src/lib/field.ts:67-71 | after a first nonempty name, any further `setName` calls keep it |
| Field.Validate | packages/core/src/lib/field.ts:77-89 | static validation decides by the decision table on the field's options overridden by the extra options |
| Field.DefinedFieldLayersOptions | packages/core/src/lib/field.ts:31-34 | static validation layers factory, definition and per-call options, later layers winning |
| Field.Instantiate | packages/core/src/lib/field.ts:92-129 | a truthy merged `name` renames the shared FieldSpec, and otherwise the name is untouched; the value is kept when truthy or `null`, and otherwise replaced by the (called) default; the displayed `required` is truthy; the instance `displayName` is the merged one when truthy, and otherwise the capitalised name after renaming |
| Field.InstanceValidate | packages/core/src/lib/field.ts:132-143 | instance validation checks the value the instance was called with, under the instance options overridden by the extra options |
| Field.InstanceValidateMatchesStatic | packages/core/src/lib/field.ts:132-137 | an instance validated without extra options decides as static validation with the options it was made with |
| JsValue.InheritedMembersAreRead | packages/core/src/lib/model.ts:103 | a property the object does not own reads the `Object.prototype` member of that name when there is one (a function for the methods) and `undefined` otherwise |
| Record.Keep | packages/core/src/lib/model.ts:73-77 | the kept keys are exactly the listed keys not dropped, without repeats |
| Record.KeepKeepsOrder | packages/core/src/lib/model.ts:73-77 | the kept keys are a subsequence of the listed keys, so their order is kept |
| Record.Overlay | packages/core/src/lib/model.ts:52 | an object spread takes the right side's entries on shared keys, keeps the left side's key order, and appends the right side's new keys |
| Record.OverlayKeepsOrder | packages/core/src/lib/model.ts:52 | the appended keys follow in the right side's order |
| Record.Omit | packages/core/src/lib/model.ts:72-77 | the listed keys are gone, and every other key reads as before |
| Record.OmitKeepsOrder | packages/core/src/lib/model.ts:72-77 | the remaining keys keep their relative order |
| Record.LastHolderOfUnion | packages/core/src/lib/model.ts:58-64 | folding one layer into the base matches reading that layer as the first of the list |
| Record.UnionAllLastWins | libs/core/src/lib/model.ts:53-59 | a left-to-right fold of spreads gives each key the entry of the last layer holding it |
| Registry.Initial | libs/core/src/lib/registry.ts:55-57 | at start-up the cache holds only the empty default registry, which allows overwriting |
| Registry.GetInstance | libs/core/src/lib/registry.ts:22-28 | a cached registry is returned unchanged; otherwise a new empty registry with the given options is created and cached |
| Registry.FirstOptionsWin | libs/core/src/lib/registry.ts:22-28 | a later `getInstance` for the same name ignores its options |
| Registry.Register | libs/core/src/lib/registry.ts:30-40 | `register` fails iff overwriting is not allowed and the key is taken; the failure names the key; success adds exactly that key |
| Registry.RegisterFreshSucceeds | libs/core/src/lib/registry.ts:31-33 | a key not yet present never fails, whatever the policy |
| Registry.RegisterThenGet | libs/core/src/lib/registry.ts:39-44 | after a successful `register`, the key looks up the new model and every other key is unchanged |
| Registry.GetAllModel | libs/core/src/lib/registry.ts:46-48 | the snapshot holds exactly the entries `getModel` finds |
| Registry.Clear | libs/core/src/lib/registry.ts:50-52 | after `clear` no key looks anything up; the name and options stay |
| Registry.RegisterIn | libs/core/src/lib/registry.ts:30-40 | registering in one cached registry leaves every other registry as it was |
| Registry.ClearIn | libs/core/src/lib/registry.ts:50-52 | clearing one registry leaves the other cached registries as they were |
| Registry.DefaultRegistryOverwrites | libs/core/src/lib/registry.ts:55-57 | registering twice under one name in the default registry succeeds, and the second model is the one looked up |
| Model.Start | libs/core/src/lib/registry.ts:14 | the initial world holds no FieldSpec names, hands out identities from 0, and caches only the default registry, which is empty and allows overwriting |
| Model.NewField | packages/core/src/lib/field.ts:22-58 | a new FieldSpec gets a fresh identity and its initial name; the other FieldSpecs are unchanged; its validation layers factory, definition and per-call options |
| Model.AttachNames | packages/core/src/lib/model.ts:154-158 | naming every field after its key keeps the names and display names already truthy; a falsy name becomes the first nonempty key holding the field, and a falsy display name the first nonempty capitalised form of a key holding it; other FieldSpecs are left alone |
| Model.ChooseRegistry | packages/core/src/lib/model.ts:35-37 | without registry options the default registry is used; with them the named registry is fetched or created, and existing registries are untouched |
| Model.Construct | packages/core/src/lib/model.ts:154-160 | building a model names its fields first-wins (a falsy name becomes the first nonempty key holding the field, likewise the display name), then registers it under `meta.name`; the build fails iff the chosen registry refuses overwriting and the name is taken; on success the model is registered and nothing else changes |
| Model.Create | packages/core/src/lib/model.ts:46-48 | `create` builds a model from the given fields and meta only, in the default registry |
| Model.CreateIgnoresSource | libs/core/src/lib/model.ts:41-43 | the model `create` is called on makes no difference to the result |
| Model.Extend | packages/core/src/lib/model.ts:50-55 | `extend` gives new fields priority over the source's on a clash and merges meta the same way; the source's key order comes first; the result is in the default registry |
| Model.MergeFields | libs/core/src/lib/model.ts:56-59 | the field accumulation equals the left-to-right union of the models' field tables, and the starting keys stay first, in order |
| Model.MergeMeta | libs/core/src/lib/model.ts:54-63 | the meta accumulation equals the left-to-right union of the models' meta |
| Model.Merge | packages/core/src/lib/model.ts:57-70 | every field of the merge comes from the last model holding the key, or else from the source; meta is the same with `newMeta` applied last; the source's keys come first, in order |
| Model.OmitFields | packages/core/src/lib/model.ts:72-83 | `omit` removes exactly the listed keys, ignores unknown names, inherits the source's meta and lets `newMeta` override it, with no other meta keys |
| Model.GetField | packages/core/src/lib/model.ts:84-86 | `getField` finds a field iff the model has that key, and it is the field stored under that key; for any other name it finds the `Object.prototype` member of that name when there is one, and otherwise nothing |
| Model.GetFieldAfterExtend | packages/core/src/lib/model.ts:50-55 | after `extend`, `getField` returns the new field on a new key and the source's field on every other key |
| Model.GetFieldAfterOmit | packages/core/src/lib/model.ts:72-83 | after `omit`, `getField` finds no field on an omitted key (only an inherited member, if any) and the source's field on every other key |
| Model.GetFieldNames | packages/core/src/lib/model.ts:89-91 | the field names are every key once |
| Model.AllValid | libs/core/src/lib/model.ts:83-89 | the validation loop is true iff every field visited accepts its value with its per-field options |
| Model.ValidateModel | packages/core/src/lib/model.ts:97-107 | a model validates iff every field accepts `values[name]` with `options?.[name]`, where `values[name]` is the own value, else the inherited `Object.prototype` member, else `undefined` |
| Model.ValidateIgnoresOtherKeys | libs/core/src/lib/model.ts:80-90 | entries of `values` that are not fields do not change the outcome |
| Model.InstantiateAll | libs/core/src/lib/model.ts:98-107 | every field under a key gets an instance of that field, called with its value, whose options are the field's options overridden by the per-call options |
| Model.InstantiateModel | packages/core/src/lib/model.ts:110-124 | calling a model gives one instance per field, in the field order, and leaves the registries alone |
| Model.AllInstancesValid | libs/core/src/lib/model.ts:111-118 | the instance validation loop is true iff every field instance validates |
| Model.ValidateInstance | packages/core/src/lib/model.ts:128-136 | an instance validates iff every one of its field instances does |
| Model.InstanceValidationAgrees | libs/core/src/lib/model.ts:93-119 | building an instance and validating it decides exactly as the model's own `validate` with the same values and per-field options |
| Filter.Switch | packages/core/src/lib/filter/core.ts:121-234 | the switch throws exactly for the operators it has no case for |
| Filter.DecodeComparison | packages/core/src/lib/filter/core.ts:66-81 | only a string comparison value can be replaced by its decoding |
| Filter.CompareValues | packages/core/src/lib/filter/core.ts:57-235 | a throw names the operator and happens only for an operator without a case; a non-string comparison value is used as given |
| Filter.CompareDecoded | packages/core/src/lib/filter/core.ts:83-234 | the comparison throws iff the operator has no case, the strict type gate let it through, and for `NULL`/`NNULL` neither side is nullish |
| Filter.NullishValueDecidesNullOperators | packages/core/src/lib/filter/core.ts:87-96 | a nullish value makes `NULL` true and `NNULL` false before any other check |
| Filter.NullishComparisonDecidesNullOperators | packages/core/src/lib/filter/core.ts:98-107 | otherwise a nullish comparison value makes `NULL` false and `NNULL` true |
| Filter.StrictTypeMismatchFails | packages/core/src/lib/filter/core.ts:110-119 | in strict mode a `typeof` mismatch is false for every operator but `EQ`, `NE` and `IN` |
| Filter.EqualityOperatorsAreNegations | packages/core/src/lib/filter/core.ts:123-126 | `EQ` and `NE` always answer and are negations of each other; strict `EQ` is equality |
| Filter.InMembership | packages/core/src/lib/filter/core.ts:139-152 | `IN` is membership in an array comparison value (or a shared element when both are arrays), otherwise membership in an array value or equality; the type gate does not apply |
| Filter.NinNegatesIn | packages/core/src/lib/filter/core.ts:154-166 | for a defined value that passes the type gate, `NIN` is the negation of `IN` |
| Filter.NullIsInAndNotIn | packages/core/src/lib/filter/core.ts:154-158 | `NIN` holds for `null` against every array in both modes, so against an array holding `null` both `IN` and `NIN` hold |
| Filter.StringOperatorsNeedStrings | packages/core/src/lib/filter/core.ts:169-230 | every string operator is false unless both operands are strings, so the negated forms are not negations there |
| Filter.NegatedStringOperatorsOnStrings | packages/core/src/lib/filter/core.ts:183-224 | on two strings the negated contains/starts-with/ends-with are the negations of the positive forms |
| Filter.InheritedFieldIsRead | packages/core/src/lib/filter/core.ts:40 | a record without its own `toString` reads the inherited method, so `NNULL` against `null` keeps it |
| Filter.FilterBy | packages/core/src/lib/filter/core.ts:39-45 | filtering fails iff some item's test throws, and then with the first such item's error; otherwise it keeps exactly the passing items, every copy, in their order |
| Filter.FilterItems | packages/core/src/lib/filter/core.ts:30-46 | `filterItems` throws iff some item's comparison throws, with the first such error; otherwise it keeps exactly the items whose comparison holds, every copy, in their order |
| Filter.AllHold | packages/core/src/lib/filter/core.ts:253-261 | `every` is true iff each condition holds; it throws exactly when the first condition that does not hold throws, and with that error |
| Filter.MultiFilter | packages/core/src/lib/filter/core.ts:244-263 | `multiFilter` throws iff some item's conditions throw, with the first such error; otherwise it keeps exactly the items meeting every condition, every copy, in their order |
| Filter.MultiFilterNoConditions | packages/core/src/lib/filter/core.ts:253-261 | with no conditions every item is kept, in order |
| Filter.MultiFilterSingle | packages/core/src/lib/filter/core.ts:244-263 | one condition filters exactly as `filterItems` with that condition's options |
| MemoryCache.Construct | packages/core/src/lib/cache/core.ts:15-20 | a new cache is empty with a zero counter, and an omitted capacity is 100 MiB |
| MemoryCache.ConstructIsAccurate | packages/core/src/lib/cache/core.ts:15-20 | a new cache's counter equals the stored total for every sizing |
| MemoryCache.Put | packages/core/src/lib/cache/core.ts:41 | storing sets the key's entry and leaves every other key as it was |
| MemoryCache.Delete | packages/core/src/lib/cache/core.ts:57-63 | `delete` of an absent key changes nothing; a present key is removed, its size is taken off, and the other keys keep their entries; the counter stays accurate |
| MemoryCache.Clear | packages/core/src/lib/cache/core.ts:65-68 | `clear` empties the store and zeroes the counter |
| MemoryCache.ClearIsAccurate | packages/core/src/lib/cache/core.ts:65-68 | after `clear` the counter equals the stored total |
| MemoryCache.Lookup | packages/core/src/lib/cache/core.ts:45-55 | `get` returns the stored value iff the key is present and not expired; otherwise the entry is deleted (a no-op when absent) |
| MemoryCache.OldestFrom | packages/core/src/lib/cache/core.ts:70-82 | the scan as written finds a position iff the store is nonempty |
| MemoryCache.OldestKey | packages/core/src/lib/cache/core.ts:70-82 | `getOldestKey` is undefined iff the store is empty, and otherwise a stored key |
| MemoryCache.OldestIsEarliestWithoutEmptyKey | packages/core/src/lib/cache/core.ts:74-79 | without an empty-string key the scan as written agrees with the earliest-expiry scan |
| MemoryCache.OldestKeyIsEarliestKey | packages/core/src/lib/cache/core.ts:70-82 | without an empty-string key `getOldestKey` is the first key with the earliest expiry, so entries without expiry (0) go first |
| MemoryCache.EmptyKeyChosenOnlyLast | packages/core/src/lib/cache/core.ts:76 | the scan ends on the empty-string key only if that key is last |
| MemoryCache.OldestKeyEmptyOnlyWhenLast | packages/core/src/lib/cache/core.ts:70-82 | `getOldestKey` returns `""` only when `""` is the last key |
| MemoryCache.EvictAsWritten | packages/core/src/lib/cache/core.ts:34-38 | eviction only removes entries, keeps an accurate counter accurate, and stops only when the value fits or `getOldestKey` is undefined or `""` |
| MemoryCache.SetAsWritten | packages/core/src/lib/cache/core.ts:26-43 | `set` fails iff the value is larger than the capacity; on success the key holds the value with its expiry, and other keys are unchanged or evicted |
| MemoryCache.OverwriteOvercounts | packages/core/src/lib/cache/core.ts:40-42 | for every accurate cache, overwriting a stored key without eviction leaves the counter above the stored total by exactly the replaced value's size |
| MemoryCache.OverwriteDoubleCounts | packages/core/src/lib/cache/core.ts:41-42 | overwriting a key of size 6 leaves the counter at 12 while 6 is stored |
| MemoryCache.EmptyKeyStopsEviction | packages/core/src/lib/cache/core.ts:34-38 | a stored `""` key stops eviction and the store ends at 13 with capacity 10 |
| MemoryCache.EvictCorrected | packages/core/src/lib/cache/core.ts:34-38 | corrected eviction only removes entries, keeps the counter accurate, and ends with room for the value or an empty store |
| MemoryCache.SetCorrected | packages/core/src/lib/cache/core.ts:26-43 | corrected `set` keeps an accurate counter accurate and within the capacity, with the same failure and storage behaviour as `set` |
| MemoryCache.EvictionsAgreeWithoutEmptyKey | packages/core/src/lib/cache/core.ts:34-38 | without an empty-string key both evictions do the same |
| MemoryCache.SetsAgreeOnFreshKeys | packages/core/src/lib/cache/core.ts:26-43 | for a new key and no empty-string key, `set` and the corrected `set` agree |
| MemoryCache.EmptyKeyEvictedWhenCorrected | packages/core/src/lib/cache/core.ts:34-38 | the corrected `set` evicts the `""` key in the scenario where `set` does not |
| MemoryCache.StoredValueReadable | packages/core/src/lib/cache/core.ts:40-55 | a value stored by `set`, as written or corrected, with a non-negative time-to-live is read back at the same time |
| Scenarios.StringFieldTruthTable | packages/core/src/tests/field.spec.ts:19-80 | the string field accepts and refuses exactly the values and option sets of the field tests |
| Scenarios.DefinedFieldValue | packages/core/src/tests/field.spec.ts:8-13 | a field defined with name and literal default has that name and exposes the default as its value |
| Scenarios.TestFieldsDefined | libs/core/src/tests/model.spec.ts:8-14 | the test model's two FieldSpecs carry their definition options without `name` |
| Scenarios.TestModelValidation | libs/core/src/tests/model.spec.ts:118-175 | the test model validates a pair of values iff both fields accept their value |
| Scenarios.NonNullableAcceptsEmptyString | libs/core/src/tests/model.spec.ts:120-125 | `{id:'', name:''}` with `nullable: false` is valid |
| Scenarios.NonNullableRejectsNull | libs/core/src/tests/model.spec.ts:126-131 | `{id:'', name:null}` with `nullable: false` is invalid |
| Scenarios.NullableAcceptsNull | libs/core/src/tests/model.spec.ts:135-140 | `{id:'', name:null}` with `nullable: true` is valid |
| Scenarios.NullableAcceptsEmptyString | libs/core/src/tests/model.spec.ts:141-146 | `{id:'', name:''}` with `nullable: true` is valid |
| Scenarios.OptionalAcceptsUndefined | libs/core/src/tests/model.spec.ts:150-155 | `{id:'', name:undefined}` with `required: false` is valid |
| Scenarios.RequiredRejectsUndefined | libs/core/src/tests/model.spec.ts:156-161 | `{id:'', name:undefined}` with `required: true` is invalid |
| Scenarios.RequiredAcceptsString | libs/core/src/tests/model.spec.ts:162-167 | `{id:'', name:'f'}` with `required: true` is valid |
| Scenarios.RequiredRejectsNumber | libs/core/src/tests/model.spec.ts:168-174 | `{id:'', name:2}` with `required: true` is invalid |
| Scenarios.InheritedMemberFailsValidation | packages/core/src/lib/model.ts:99-104 | an optional string field named `constructor` refuses an empty record, because it reads the inherited `Object` function; a field named `title` accepts it |
| Scenarios.TestModelConstruction | libs/core/src/tests/model.spec.ts:10-21 | building the test model names `id` after its key, keeps `no-name`, and registers the model under `test-model` in the default registry |

## Left out

- zod beyond the five combinators: the base schema is an abstract check that outputs its input unchanged, and the asynchronous `safeParseAsync` is a synchronous parse.
- The `validators`, `readOnly`, `hidden`, `visuallyHidden`, `order` and `compute` options: they are copied onto FieldSpecs and instances but never reach validation.
- `setModel` and the instance `model` property: the parameter shadows the closure variable, so the instance always reports `null`.
- `isValidField`: runtime reflection over property names.
- `capitalCase` from change-case: it is a parameter (`CaseFn`). A name that is not a string capitalises as the empty string.
- Objects whose prototype is not `Object.prototype` (class instances, `Object.create(null)`): every object read here is a plain object. What an inherited method returns when called is not modelled, since the core never calls one.
- Integer-like object keys, which JavaScript orders before the other keys: an object's key order is its insertion order here.
- Registry.GetAllModel: the snapshot keeps the registry's keys as values. `Object.fromEntries` turns each key into a property name, so two keys with the same string form (`undefined` and `"undefined"`) become one property; the registry table here has no insertion order that would say which entry wins.
- Model.AttachNames: when a field's name is falsy and every key holding it is `""` (or every capitalised form is empty, for the display name), the contract does not say that the name ends as `""`.
- Model.InstantiateAll: does not state how calling a model renames its FieldSpecs (a truthy per-call `name`); Field.Instantiate states it for one field.
- The regular expression and `JSON.parse` decoding of a string comparison value, and the `console.log` calls: the decoding is a host-supplied parser.
- Filter.LooseEquals: JavaScript `==` between values of different kinds that are not both nullish (ToPrimitive, string-to-number conversion) comes from a host parameter.
- Filter.IsLessThan: `<` between values that need conversion (objects, arrays, functions, a string against a non-string) comes from a host parameter; strings and primitive numbers are spelled out.
- `===` on arrays, objects and functions is structural equality here; JavaScript compares their identity. `Array.prototype.includes` is membership by the same equality.
- `toLowerCase` changes only ASCII letters. Strings compare by character rather than by UTF-16 code unit.
- The `caseSensitive` option: it is read but never used.
- JavaScript numbers are integers here: no fractions, `NaN` or infinities.
- `TextEncoder`/`JSON.stringify` sizing and `Date.now()`: the value's size and the current time are parameters.
- `LocalStorageAdapter`, `CacheManager` and `createCacheManager`: browser storage, a key-prefix wrapper and window detection.
- The asynchronous interleaving of cache and validation calls: each call is one atomic step.
- `packages/core/src/lib/manager.ts` and the `save`, `update` and `delete` instance methods: unimplemented stubs.
- `packages/core/src/lib/events.ts` and the registry's `events` field: subscribe/emit stubs with no effect.
- `libs/core/src/lib/types.ts`: type declarations only.

## Findings

| source | as written | input that shows it | evidently intended | confidence | as-written member | corrected member |
|---|---|---|---|---|---|---|
| packages/core/src/lib/cache/core.ts:41-42 | `set` adds the new value's size to `currentSize` without taking off the size of the entry it replaces | capacity 100, `set('a', v)` twice with a value of size 6: `currentSize` is 12 while 6 bytes are stored | overwriting a key replaces its size, so `currentSize` equals the stored total | not executed | MemoryCache.OverwriteOvercounts | MemoryCache.SetCorrected |
| packages/core/src/lib/cache/core.ts:36 | the eviction loop stops on a falsy `getOldestKey()`, which the empty-string key is | capacity 10, `set('', v)` of size 8, then `set('a', w)` of size 5: nothing is evicted and 13 bytes are stored | stop only when no key is left, so the store stays within its capacity | not executed | MemoryCache.EmptyKeyStopsEviction | MemoryCache.EvictCorrected |

=== FILE: cache.dfy ===
/** The in-memory storage adapter of the cache: a size-bounded, insertion-
    ordered table of entries with optional expiry times. The size of a value
    (the byte length of its JSON text) and the current time are parameters. */
module MemoryCache {
  import opened Wrappers
  import opened Record

  /** 100 MiB, the default capacity. */
  const DefaultMaxSize: int := 100 * 1024 * 1024

  /** A stored value and its expiry time; 0 means it never expires. */
  datatype Entry<V> = Entry(value: V, expires: int)

  /** `MemoryStorage`: the `Map` of entries (iterated in insertion order), the
      capacity and the running size counter. */
  datatype Storage<V> = Storage(store: Obj<Entry<V>>, maxSize: int, currentSize: int)

  datatype CacheError = TooLarge

  function New<V>(maxSize: int): Storage<V> {
    Storage(Rec([], map[]), maxSize, 0)
  }

  /** `new MemoryStorage(maxSizeInBytes)`: an omitted capacity is 100 MiB; the
      new cache is empty and counts nothing. */
  function Construct<V>(maxSizeInBytes: Option<int>): (s: Storage<V>)
    ensures s.maxSize == if maxSizeInBytes.Some? then maxSizeInBytes.value else DefaultMaxSize
    ensures forall k :: Get(s.store, k) == None
    ensures s.currentSize == 0
  {
    New(maxSizeInBytes.GetOr(DefaultMaxSize))
  }

  /** A new cache's counter is accurate whatever the sizing. */
  lemma ConstructIsAccurate<V>(sizeOf: V -> nat, maxSizeInBytes: Option<int>)
    ensures Accurate(sizeOf, Construct(maxSizeInBytes))
  {
  }

  // ---------------------------------------------------------------------------
  // The size counter
  // ---------------------------------------------------------------------------

  function SumOver<V>(sizeOf: V -> nat, keys: seq<string>, entries: map<string, Entry<V>>): nat
    decreases |keys|
  {
    if keys == [] then 0
    else (if keys[0] in entries then sizeOf(entries[keys[0]].value) else 0) + SumOver(sizeOf, keys[1..], entries)
  }

  /** The total size of the stored values. */
  function Total<V>(sizeOf: V -> nat, store: Obj<Entry<V>>): nat {
    SumOver(sizeOf, store.keys, store.entries)
  }

  /** The counter equals the total size of what is stored. */
  ghost predicate Accurate<V>(sizeOf: V -> nat, s: Storage<V>) {
    s.currentSize == Total(sizeOf, s.store)
  }

  lemma {:induction false} SumIgnoresOthers<V>(sizeOf: V -> nat, keys: seq<string>, entries: map<string, Entry<V>>,
                                               k: string, e: Entry<V>)
    requires k !in keys
    ensures SumOver(sizeOf, keys, entries[k := e]) == SumOver(sizeOf, keys, entries)
    ensures SumOver(sizeOf, keys, entries - {k}) == SumOver(sizeOf, keys, entries)
    decreases |keys|
  {
    if keys != [] {
      SumIgnoresOthers(sizeOf, keys[1..], entries, k, e);
    }
  }

  lemma {:induction false} SumAppend<V>(sizeOf: V -> nat, keys: seq<string>, entries: map<string, Entry<V>>, k: string)
    ensures SumOver(sizeOf, keys + [k], entries) == SumOver(sizeOf, keys, entries) + SumOver(sizeOf, [k], entries)
    decreases |keys|
  {
    if keys == [] {
      assert keys + [k] == [k];
    } else {
      assert (keys + [k])[1..] == keys[1..] + [k];
      SumAppend(sizeOf, keys[1..], entries, k);
    }
  }

  lemma {:induction false} SumWithout<V>(sizeOf: V -> nat, keys: seq<string>, entries: map<string, Entry<V>>, k: string)
    requires Distinct(keys) && k in entries && k in keys
    ensures SumOver(sizeOf, Keep(keys, {k}), entries - {k}) + sizeOf(entries[k].value) == SumOver(sizeOf, keys, entries)
    decreases |keys|
  {
    assert Distinct(keys[1..]) by {
      forall i, j | 0 <= i < j < |keys| - 1 ensures keys[1..][i] != keys[1..][j] {
        assert keys[1..][i] == keys[i + 1] && keys[1..][j] == keys[j + 1];
      }
    }
    if keys[0] == k {
      assert k !in keys[1..] by {
        forall i | 0 <= i < |keys| - 1 ensures keys[1..][i] != k {
          assert keys[1..][i] == keys[i + 1];
        }
      }
      KeepAbsent(keys[1..], k);
      SumIgnoresOthers(sizeOf, keys[1..], entries, k, entries[k]);
    } else {
      SumWithout(sizeOf, keys[1..], entries, k);
    }
  }

  lemma {:induction false} SumReplace<V>(sizeOf: V -> nat, keys: seq<string>, entries: map<string, Entry<V>>,
                                         k: string, e: Entry<V>)
    requires Distinct(keys) && k in entries && k in keys
    ensures SumOver(sizeOf, keys, entries[k := e]) + sizeOf(entries[k].value) == SumOver(sizeOf, keys, entries) + sizeOf(e.value)
    decreases |keys|
  {
    assert Distinct(keys[1..]) by {
      forall i, j | 0 <= i < j < |keys| - 1 ensures keys[1..][i] != keys[1..][j] {
        assert keys[1..][i] == keys[i + 1] && keys[1..][j] == keys[j + 1];
      }
    }
    if keys[0] == k {
      assert k !in keys[1..] by {
        forall i | 0 <= i < |keys| - 1 ensures keys[1..][i] != k {
          assert keys[1..][i] == keys[i + 1];
        }
      }
      SumIgnoresOthers(sizeOf, keys[1..], entries, k, e);
    } else {
      SumReplace(sizeOf, keys[1..], entries, k, e);
    }
  }

  lemma {:induction false} KeepAbsent(keys: seq<string>, k: string)
    requires k !in keys
    ensures Keep(keys, {k}) == keys
    decreases |keys|
  {
    if keys != [] {
      KeepAbsent(keys[1..], k);
    }
  }

  // ---------------------------------------------------------------------------
  // The table operations
  // ---------------------------------------------------------------------------

  /** `Map.set`: a present key keeps its position, a new key goes last. */
  function Put<V>(store: Obj<Entry<V>>, k: string, e: Entry<V>): (r: Obj<Entry<V>>)
    ensures forall x :: Get(r, x) == if x == k then Some(e) else Get(store, x)
  {
    Rec(if k in store.entries then store.keys else store.keys + [k], store.entries[k := e])
  }

  /** Storing a new key adds exactly its size to the total. */
  lemma PutFreshTotal<V>(sizeOf: V -> nat, store: Obj<Entry<V>>, k: string, e: Entry<V>)
    requires k !in store.entries
    ensures Total(sizeOf, Put(store, k, e)) == Total(sizeOf, store) + sizeOf(e.value)
  {
    SumAppend(sizeOf, store.keys, store.entries[k := e], k);
    SumIgnoresOthers(sizeOf, store.keys, store.entries, k, e);
  }

  /** `delete(key)`: a stored key is removed and its size taken off the
      counter; an absent key changes nothing. */
  function Delete<V>(sizeOf: V -> nat, s: Storage<V>, key: string): (r: Storage<V>)
    ensures forall k :: Get(r.store, k) == if k == key then None else Get(s.store, k)
    ensures r.maxSize == s.maxSize
    ensures key !in s.store.entries ==> r == s
    ensures key in s.store.entries ==>
              && |r.store.keys| < |s.store.keys|
              && r.currentSize == s.currentSize - sizeOf(s.store.entries[key].value)
    ensures Accurate(sizeOf, s) ==> Accurate(sizeOf, r)
  {
    if key in s.store.entries then
      var store := Omit(s.store, [key]);
      assert (set k | k in [key]) == {key};
      SumWithout(sizeOf, s.store.keys, s.store.entries, key);
      Storage(store, s.maxSize, s.currentSize - sizeOf(s.store.entries[key].value))
    else s
  }

  /** `clear()` */
  function Clear<V>(s: Storage<V>): (r: Storage<V>)
    ensures forall k :: Get(r.store, k) == None
    ensures r.maxSize == s.maxSize && r.currentSize == 0
  {
    New(s.maxSize)
  }

  lemma ClearIsAccurate<V>(sizeOf: V -> nat, s: Storage<V>)
    ensures Accurate(sizeOf, Clear(s))
  {
  }

  /** An entry with a nonzero expiry time earlier than `now`. */
  predicate Expired<V>(e: Entry<V>, now: int) {
    e.expires != 0 && e.expires < now
  }

  /** `get(key)` at time `now`: the stored value unless it is missing or has
      expired; an expired entry is deleted on the way. */
  function Lookup<V>(sizeOf: V -> nat, s: Storage<V>, key: string, now: int): (r: (Storage<V>, Option<V>))
    ensures r.1.Some? <==> key in s.store.entries && !Expired(s.store.entries[key], now)
    ensures r.1.Some? ==> r.1.value == s.store.entries[key].value && r.0 == s
    ensures r.1.None? ==> r.0 == Delete(sizeOf, s, key)
  {
    if key !in s.store.entries then (s, None)
    else if Expired(s.store.entries[key], now) then (Delete(sizeOf, s, key), None)
    else (s, Some(s.store.entries[key].value))
  }

  /** `ttl ? Date.now() + ttl : 0` */
  function ExpiryOf(ttl: int, now: int): int {
    if ttl != 0 then now + ttl else 0
  }

  // ---------------------------------------------------------------------------
  // Choosing what to evict
  // ---------------------------------------------------------------------------

  function ExpiresAt<V>(store: Obj<Entry<V>>, m: nat): int
    requires m < |store.keys|
  {
    store.entries[store.keys[m]].expires
  }

  /** Position `b` holds the earliest expiry among the first `n` keys, and no
      key before it has that expiry. */
  ghost predicate FirstEarliest<V>(store: Obj<Entry<V>>, n: nat, b: nat)
    requires n <= |store.keys|
  {
    && b < n
    && (forall m | 0 <= m < n :: ExpiresAt(store, b) <= ExpiresAt(store, m))
    && (forall m | 0 <= m < b :: ExpiresAt(store, m) > ExpiresAt(store, b))
  }

  /** `getOldestKey()` as written, over positions from `i`: a candidate is
      replaced when there is none yet, when its key is the falsy empty string,
      or when the entry expires strictly earlier. */
  function OldestFrom<V>(store: Obj<Entry<V>>, i: nat, best: Option<nat>): (r: Option<nat>)
    requires i <= |store.keys| && (best.Some? ==> best.value < i)
    ensures r.None? <==> best.None? && i == |store.keys|
    ensures r.Some? ==> r.value < |store.keys|
    decreases |store.keys| - i
  {
    if i == |store.keys| then best
    else if best.None? || store.keys[best.value] == "" || ExpiresAt(store, i) < ExpiresAt(store, best.value) then
      OldestFrom(store, i + 1, Some(i))
    else OldestFrom(store, i + 1, best)
  }

  function OldestKey<V>(store: Obj<Entry<V>>): (r: Option<string>)
    ensures r.None? <==> store.keys == []
    ensures r.Some? ==> r.value in store.entries
  {
    match OldestFrom(store, 0, None)
    case None => None
    case Some(j) => Some(store.keys[j])
  }

  /** The scan without the falsy-key test: the first key with the earliest
      expiry. */
  function EarliestFrom<V>(store: Obj<Entry<V>>, i: nat, best: Option<nat>): (r: Option<nat>)
    requires i <= |store.keys|
    requires best.None? <==> i == 0
    requires best.Some? ==> FirstEarliest(store, i, best.value)
    ensures r.None? <==> store.keys == []
    ensures r.Some? ==> r.value < |store.keys| && FirstEarliest(store, |store.keys|, r.value)
    decreases |store.keys| - i
  {
    if i == |store.keys| then best
    else if best.None? || ExpiresAt(store, i) < ExpiresAt(store, best.value) then
      EarliestFrom(store, i + 1, Some(i))
    else EarliestFrom(store, i + 1, best)
  }

  function EarliestKey<V>(store: Obj<Entry<V>>): (r: Option<string>)
    ensures r.None? <==> store.keys == []
    ensures r.Some? ==> r.value in store.entries
    ensures r.Some? ==> forall k | k in store.entries :: store.entries[r.value].expires <= store.entries[k].expires
  {
    match EarliestFrom(store, 0, None)
    case None => None
    case Some(j) =>
      assert forall k | k in store.entries :: store.entries[store.keys[j]].expires <= store.entries[k].expires by {
        forall k | k in store.entries ensures store.entries[store.keys[j]].expires <= store.entries[k].expires {
          var m :| 0 <= m < |store.keys| && store.keys[m] == k;
          assert ExpiresAt(store, j) <= ExpiresAt(store, m);
        }
      }
      Some(store.keys[j])
  }

  /** Without an empty-string key the scan as written finds the first key with
      the earliest expiry. */
  lemma {:induction false} OldestIsEarliestWithoutEmptyKey<V>(store: Obj<Entry<V>>, i: nat, best: Option<nat>)
    requires "" !in store.entries
    requires i <= |store.keys|
    requires best.None? <==> i == 0
    requires best.Some? ==> FirstEarliest(store, i, best.value)
    ensures OldestFrom(store, i, best) == EarliestFrom(store, i, best)
    decreases |store.keys| - i
  {
    if i < |store.keys| {
      assert best.Some? ==> store.keys[best.value] != "";
      if best.None? || ExpiresAt(store, i) < ExpiresAt(store, best.value) {
        OldestIsEarliestWithoutEmptyKey(store, i + 1, Some(i));
      } else {
        OldestIsEarliestWithoutEmptyKey(store, i + 1, best);
      }
    }
  }

  lemma OldestKeyIsEarliestKey<V>(store: Obj<Entry<V>>)
    requires "" !in store.entries
    ensures OldestKey(store) == EarliestKey(store)
  {
    OldestIsEarliestWithoutEmptyKey(store, 0, None);
  }

  /** Once the empty-string key is the candidate, the next key replaces it
      whatever its expiry: the scan can end on "" only when "" is the last key. */
  lemma {:induction false} EmptyKeyChosenOnlyLast<V>(store: Obj<Entry<V>>, i: nat, best: Option<nat>)
    requires i <= |store.keys| && (best.Some? ==> best.value < i)
    requires best.Some? && store.keys[best.value] == "" ==> best.value == i - 1
    requires OldestFrom(store, i, best).Some?
    requires store.keys[OldestFrom(store, i, best).value] == ""
    ensures OldestFrom(store, i, best).value == |store.keys| - 1
    decreases |store.keys| - i
  {
    if i < |store.keys| {
      if best.None? || store.keys[best.value] == "" || ExpiresAt(store, i) < ExpiresAt(store, best.value) {
        EmptyKeyChosenOnlyLast(store, i + 1, Some(i));
      } else {
        EmptyKeyChosenOnlyLast(store, i + 1, best);
      }
    }
  }

  lemma OldestKeyEmptyOnlyWhenLast<V>(store: Obj<Entry<V>>)
    requires OldestKey(store) == Some("")
    ensures store.keys[|store.keys| - 1] == ""
  {
    EmptyKeyChosenOnlyLast(store, 0, None);
  }

  // ---------------------------------------------------------------------------
  // set, as written
  // ---------------------------------------------------------------------------

  /** The eviction loop as written: while the new value does not fit, delete
      the key `getOldestKey` names, and stop when that key is falsy (there is
      none, or it is the empty string). */
  function EvictAsWritten<V>(sizeOf: V -> nat, s: Storage<V>, size: nat): (r: Storage<V>)
    ensures r.maxSize == s.maxSize
    ensures forall k :: Get(r.store, k) == None || Get(r.store, k) == Get(s.store, k)
    ensures Accurate(sizeOf, s) ==> Accurate(sizeOf, r)
    ensures r.currentSize + size <= r.maxSize || OldestKey(r.store) == None || OldestKey(r.store) == Some("")
    decreases |s.store.keys|
  {
    if s.currentSize + size <= s.maxSize then s
    else
      match OldestKey(s.store)
      case None => s
      case Some(k) => if k == "" then s else EvictAsWritten(sizeOf, Delete(sizeOf, s, k), size)
  }

  /** `set(key, value, ttl)` at time `now`, as written. */
  function SetAsWritten<V>(sizeOf: V -> nat, s: Storage<V>, key: string, value: V, ttl: int, now: int)
    : (r: Result<Storage<V>, CacheError>)
    ensures r.Failure? <==> sizeOf(value) > s.maxSize
    ensures r.Success? ==> Get(r.value.store, key) == Some(Entry(value, ExpiryOf(ttl, now)))
    ensures r.Success? ==> forall k | k != key :: Get(r.value.store, k) == None || Get(r.value.store, k) == Get(s.store, k)
    ensures r.Success? ==> r.value.maxSize == s.maxSize
  {
    var size := sizeOf(value);
    if size > s.maxSize then Failure(TooLarge)
    else
      var t := EvictAsWritten(sizeOf, s, size);
      Success(Storage(Put(t.store, key, Entry(value, ExpiryOf(ttl, now))), t.maxSize, t.currentSize + size))
  }

  /** For every accurate cache, overwriting a stored key when the new value
      fits without eviction leaves the counter above the stored total by
      exactly the size of the replaced value. */
  lemma OverwriteOvercounts<V>(sizeOf: V -> nat, s: Storage<V>, key: string, value: V, ttl: int, now: int)
    requires Accurate(sizeOf, s) && key in s.store.entries
    requires s.currentSize + sizeOf(value) <= s.maxSize
    ensures SetAsWritten(sizeOf, s, key, value, ttl, now).Success?
    ensures var r := SetAsWritten(sizeOf, s, key, value, ttl, now).value;
            r.currentSize == Total(sizeOf, r.store) + sizeOf(s.store.entries[key].value)
  {
    var e := Entry(value, ExpiryOf(ttl, now));
    assert Put(s.store, key, e).keys == s.store.keys;
    SumReplace(sizeOf, s.store.keys, s.store.entries, key, e);
  }

  /** Overwriting a key adds the new size without taking off the old one. */
  lemma OverwriteDoubleCounts()
    ensures var sizeOf := (x: int) => 6;
            var s1 := SetAsWritten(sizeOf, New(100), "a", 1, 0, 0).value;
            var s2 := SetAsWritten(sizeOf, s1, "a", 2, 0, 0).value;
            s2.currentSize == 12 && Total(sizeOf, s2.store) == 6 && !Accurate(sizeOf, s2)
  {
    var sizeOf := (x: int) => 6;
    var s1 := SetAsWritten(sizeOf, New(100), "a", 1, 0, 0).value;
    assert s1.store.keys == ["a"];
    var s2 := SetAsWritten(sizeOf, s1, "a", 2, 0, 0).value;
    assert s2.store.keys == ["a"];
  }

  /** The size of a natural-number value is the number itself. */
  function SizeIsValue(x: nat): nat { x }

  /** A stored empty-string key stops eviction, so the counter, here equal to
      the true total, ends above the capacity. */
  lemma EmptyKeyStopsEviction()
    ensures var s1 := SetAsWritten(SizeIsValue, New(10), "", 8, 0, 0).value;
            var s2 := SetAsWritten(SizeIsValue, s1, "a", 5, 0, 0).value;
            s2.currentSize == 13 && Accurate(SizeIsValue, s2) && s2.currentSize > s2.maxSize
  {
    var s0: Storage<nat> := New(10);
    assert EvictAsWritten(SizeIsValue, s0, 8) == s0;
    var one := Put(s0.store, "", Entry(8, 0));
    assert one.keys == [""];
    var s1 := SetAsWritten(SizeIsValue, s0, "", 8, 0, 0).value;
    assert s1 == Storage(one, 10, 8);
    assert OldestFrom(one, 1, Some(0)) == Some(0);
    assert OldestKey(one) == Some("");
    assert EvictAsWritten(SizeIsValue, s1, 5) == s1;
    var two := Put(one, "a", Entry(5, 0));
    assert two.keys == ["", "a"];
    var s2 := SetAsWritten(SizeIsValue, s1, "a", 5, 0, 0).value;
    assert s2 == Storage(two, 10, 13);
    assert SumOver(SizeIsValue, two.keys[1..], two.entries) == 5;
  }

  // ---------------------------------------------------------------------------
  // set, corrected
  // ---------------------------------------------------------------------------

  /** Eviction that stops only when nothing is left, deleting the entry that
      expires first. With an accurate counter it makes room for any value that
      fits the capacity. */
  function EvictCorrected<V>(sizeOf: V -> nat, s: Storage<V>, size: nat): (r: Storage<V>)
    ensures r.maxSize == s.maxSize
    ensures forall k :: Get(r.store, k) == None || Get(r.store, k) == Get(s.store, k)
    ensures Accurate(sizeOf, s) ==> Accurate(sizeOf, r)
    ensures r.currentSize + size <= r.maxSize || r.store.keys == []
    decreases |s.store.keys|
  {
    if s.currentSize + size <= s.maxSize then s
    else
      match EarliestKey(s.store)
      case None => s
      case Some(k) => EvictCorrected(sizeOf, Delete(sizeOf, s, k), size)
  }

  /** `set` with the old entry's size taken off before the new one is counted,
      and with eviction that does not stop at an empty-string key. It keeps the
      counter equal to the stored total and within the capacity. */
  function SetCorrected<V>(sizeOf: V -> nat, s: Storage<V>, key: string, value: V, ttl: int, now: int)
    : (r: Result<Storage<V>, CacheError>)
    ensures r.Failure? <==> sizeOf(value) > s.maxSize
    ensures r.Success? ==> Get(r.value.store, key) == Some(Entry(value, ExpiryOf(ttl, now)))
    ensures r.Success? ==> forall k | k != key :: Get(r.value.store, k) == None || Get(r.value.store, k) == Get(s.store, k)
    ensures r.Success? ==> r.value.maxSize == s.maxSize
    ensures r.Success? && Accurate(sizeOf, s) ==> Accurate(sizeOf, r.value) && r.value.currentSize <= r.value.maxSize
  {
    var size := sizeOf(value);
    if size > s.maxSize then Failure(TooLarge)
    else
      var cleared := Delete(sizeOf, s, key);
      var t := EvictCorrected(sizeOf, cleared, size);
      assert key !in t.store.entries by { assert Get(cleared.store, key) == None; }
      PutFreshTotal(sizeOf, t.store, key, Entry(value, ExpiryOf(ttl, now)));
      Success(Storage(Put(t.store, key, Entry(value, ExpiryOf(ttl, now))), t.maxSize, t.currentSize + size))
  }

  /** The two agree on a key that is not yet stored when no empty-string key is. */
  lemma {:induction false} EvictionsAgreeWithoutEmptyKey<V>(sizeOf: V -> nat, s: Storage<V>, size: nat)
    requires "" !in s.store.entries
    ensures EvictAsWritten(sizeOf, s, size) == EvictCorrected(sizeOf, s, size)
    decreases |s.store.keys|
  {
    if s.currentSize + size > s.maxSize {
      OldestKeyIsEarliestKey(s.store);
      match EarliestKey(s.store)
      case None =>
      case Some(k) =>
        var d := Delete(sizeOf, s, k);
        assert Get(d.store, "") == None;
        EvictionsAgreeWithoutEmptyKey(sizeOf, d, size);
    }
  }

  lemma SetsAgreeOnFreshKeys<V>(sizeOf: V -> nat, s: Storage<V>, key: string, value: V, ttl: int, now: int)
    requires key !in s.store.entries && "" !in s.store.entries
    ensures SetAsWritten(sizeOf, s, key, value, ttl, now) == SetCorrected(sizeOf, s, key, value, ttl, now)
  {
    EvictionsAgreeWithoutEmptyKey(sizeOf, s, sizeOf(value));
  }

  /** The corrected `set` evicts the empty-string key like any other. */
  lemma EmptyKeyEvictedWhenCorrected()
    ensures var s1 := SetCorrected(SizeIsValue, New(10), "", 8, 0, 0).value;
            var s2 := SetCorrected(SizeIsValue, s1, "a", 5, 0, 0).value;
            s2.currentSize == 5 && s2.store.keys == ["a"]
  {
    var one: Obj<Entry<nat>> := Rec([""], map["" := Entry(8, 0)]);
    CorrectedFirstSet(one);
    CorrectedSecondSet(one);
  }

  lemma CorrectedFirstSet(one: Obj<Entry<nat>>)
    requires one == Rec([""], map["" := Entry(8, 0)])
    ensures SetCorrected(SizeIsValue, New(10), "", 8, 0, 0) == Success(Storage(one, 10, 8))
  {
    var s0: Storage<nat> := New(10);
    assert Delete(SizeIsValue, s0, "") == s0;
    assert EvictCorrected(SizeIsValue, s0, 8) == s0;
    assert Put(s0.store, "", Entry(8, 0)) == one;
  }

  lemma CorrectedSecondSet(one: Obj<Entry<nat>>)
    requires one == Rec([""], map["" := Entry(8, 0)])
    ensures SetCorrected(SizeIsValue, Storage(one, 10, 8), "a", 5, 0, 0).value.currentSize == 5
    ensures SetCorrected(SizeIsValue, Storage(one, 10, 8), "a", 5, 0, 0).value.store.keys == ["a"]
  {
    var s1 := Storage(one, 10, 8);
    assert Delete(SizeIsValue, s1, "a") == s1;
    assert EarliestFrom(one, 1, Some(0)) == Some(0);
    assert EarliestKey(one) == Some("");
    var d := Delete(SizeIsValue, s1, "");
    assert (set k | k in [""]) == {""};
    assert Keep([""], {""}) == [];
    assert d == Storage(Rec([], map[]), 10, 0);
    assert EvictCorrected(SizeIsValue, d, 5) == d;
    assert EvictCorrected(SizeIsValue, s1, 5) == d;
  }

  /** A value stored with a non-negative time-to-live is readable at once,
      whether `set` runs as written or corrected. */
  lemma StoredValueReadable<V>(sizeOf: V -> nat, s: Storage<V>, key: string, value: V, ttl: int, now: int)
    requires ttl >= 0
    ensures SetAsWritten(sizeOf, s, key, value, ttl, now).Success? ==>
              Lookup(sizeOf, SetAsWritten(sizeOf, s, key, value, ttl, now).value, key, now).1 == Some(value)
    ensures SetCorrected(sizeOf, s, key, value, ttl, now).Success? ==>
              Lookup(sizeOf, SetCorrected(sizeOf, s, key, value, ttl, now).value, key, now).1 == Some(value)
  {
    if SetAsWritten(sizeOf, s, key, value, ttl, now).Success? {
      var r := SetAsWritten(sizeOf, s, key, value, ttl, now).value;
      assert Get(r.store, key) == Some(Entry(value, ExpiryOf(ttl, now)));
    }
    if SetCorrected(sizeOf, s, key, value, ttl, now).Success? {
      var r := SetCorrected(sizeOf, s, key, value, ttl, now).value;
      assert Get(r.store, key) == Some(Entry(value, ExpiryOf(ttl, now)));
    }
  }
}

=== FILE: field.dfy ===
/** Model fields: option layering, the refined validation rule a field builds
    from its base type check, the field blueprint (FieldSpec) and the field
    instances it produces. */
module Field {
  import opened Wrappers
  import opened JsValue
  import opened Schema

  /** The field options that take part in naming and validation. Each key is
      None when absent; `Some(Undefined)` is a key explicitly set to `undefined`,
      which still overrides in a spread. */
  datatype FieldOptions = FieldOptions(
    name: Option<Value>,
    required: Option<Value>,
    nullable: Option<Value>,
    default: Option<Value>,
    displayName: Option<Value>)

  /** `{}` */
  const NoOptions := FieldOptions(None, None, None, None, None)

  function Over<T>(a: Option<T>, b: Option<T>): Option<T> {
    if b.Some? then b else a
  }

  /** `{ ...a, ...b }`: a key present in `b` replaces the same key of `a`. */
  function Spread(a: FieldOptions, b: FieldOptions): FieldOptions {
    FieldOptions(
      Over(a.name, b.name),
      Over(a.required, b.required),
      Over(a.nullable, b.nullable),
      Over(a.default, b.default),
      Over(a.displayName, b.displayName))
  }

  /** `const { name, ...rest } = o`: the options without their `name`. */
  function Rest(o: FieldOptions): FieldOptions {
    o.(name := None)
  }

  /** Spreading the same layer twice changes nothing, which is why a model
      instance re-merging a field's own options is harmless. */
  lemma SpreadAbsorbs(a: FieldOptions, b: FieldOptions)
    ensures Spread(a, Spread(a, b)) == Spread(a, b)
  {
  }

  lemma SpreadAssociative(a: FieldOptions, b: FieldOptions, c: FieldOptions)
    ensures Spread(Spread(a, b), c) == Spread(a, Spread(b, c))
  {
  }

  lemma SpreadIdentity(a: FieldOptions)
    ensures Spread(NoOptions, a) == a && Spread(a, NoOptions) == a
  {
  }

  /** What a truthy `default` substitutes for `undefined`: a function default
      is called, any other default is used as is. */
  function DefaultValue(o: FieldOptions): Value {
    Call(Read(o.default))
  }

  // ---------------------------------------------------------------------------
  // The refined rule (transformSchema)
  // ---------------------------------------------------------------------------

  /** The refined rule built from the base check and the merged options: a
      default only when `default` is truthy; a null allowance or a null refusal
      by `nullable`; optional when `required` is falsy. */
  function TransformSchema(o: FieldOptions): (r: Rule)
    ensures Fallbacks(r) == (if TruthyOpt(o.default) then {DefaultValue(o)} else {})
  {
    var withDefault := if TruthyOpt(o.default) then WithDefault(Base, DefaultValue(o)) else Base;
    var withNull :=
      if TruthyOpt(o.nullable) then Refine(Nullable(withDefault), Undefined)
      else Refine(withDefault, Null);
    assert Fallbacks(withNull) == Fallbacks(withDefault);
    if !TruthyOpt(o.required) then Optional(withNull)
    else if TruthyOpt(o.nullable) then Nullable(withNull)
    else withNull
  }

  /** The refined rule accepts `v`. */
  predicate Accepts(base: BaseCheck, o: FieldOptions, v: Value) {
    Parse(base, TransformSchema(o), v).Some?
  }

  /** The decision table of field validation, written independently of the
      rule: `null` is decided by `nullable` alone; `undefined` passes when not
      required, and otherwise only through a truthy default that the base check
      accepts and that the null/undefined refinement does not exclude; every
      other value is decided by the base check alone. */
  function Expected(base: BaseCheck, o: FieldOptions, v: Value): bool {
    var nullable := TruthyOpt(o.nullable);
    if v == Null then nullable
    else if v == Undefined then
      !TruthyOpt(o.required)
      || (if TruthyOpt(o.default)
          then base(DefaultValue(o)) && DefaultValue(o) != (if nullable then Undefined else Null)
          else !nullable && base(Undefined))
    else base(v)
  }

  lemma AcceptsMatchesExpected(base: BaseCheck, o: FieldOptions, v: Value)
    ensures Accepts(base, o, v) == Expected(base, o, v)
  {
    var withDefault := if TruthyOpt(o.default) then WithDefault(Base, DefaultValue(o)) else Base;
    var withNull :=
      if TruthyOpt(o.nullable) then Refine(Nullable(withDefault), Undefined)
      else Refine(withDefault, Null);
    var inner := if v == Undefined && TruthyOpt(o.default) then DefaultValue(o) else v;
    assert Parse(base, withDefault, v) == (if base(inner) then Some(inner) else None);
    if TruthyOpt(o.nullable) {
      assert Parse(base, withNull, v).Some? <==> v == Null || (base(inner) && inner != Undefined);
    } else {
      assert Parse(base, withNull, v).Some? <==> base(inner) && inner != Null;
    }
  }

  /** `null` is accepted exactly when the merged `nullable` is truthy, whatever
      the base check and the other options. */
  lemma NullAcceptedIffNullable(base: BaseCheck, o: FieldOptions)
    ensures Accepts(base, o, Null) <==> TruthyOpt(o.nullable)
  {
    AcceptsMatchesExpected(base, o, Null);
  }

  /** A falsy or absent `required` makes the rule optional. */
  lemma UndefinedAcceptedUnlessRequired(base: BaseCheck, o: FieldOptions)
    requires !TruthyOpt(o.required)
    ensures Accepts(base, o, Undefined)
  {
    AcceptsMatchesExpected(base, o, Undefined);
  }

  /** With a truthy `required` and no truthy `default`, `undefined` is refused
      by a base check that refuses it, even when `nullable` is truthy. */
  lemma UndefinedRejectedWhenRequired(base: BaseCheck, o: FieldOptions)
    requires TruthyOpt(o.required) && !TruthyOpt(o.default) && !base(Undefined)
    ensures !Accepts(base, o, Undefined)
  {
    AcceptsMatchesExpected(base, o, Undefined);
  }

  /** A truthy default stands in for `undefined` before the base check. */
  lemma DefaultSubstitutes(base: BaseCheck, o: FieldOptions)
    requires TruthyOpt(o.required) && TruthyOpt(o.default) && !IsNullish(DefaultValue(o))
    ensures Accepts(base, o, Undefined) <==> base(DefaultValue(o))
  {
    AcceptsMatchesExpected(base, o, Undefined);
  }

  /** A falsy default (`''`, `0`, `false`, `null`) is ignored. */
  lemma FalsyDefaultIgnored(o: FieldOptions)
    requires !TruthyOpt(o.default)
    ensures TransformSchema(o) == TransformSchema(o.(default := None))
  {
  }

  /** A defined value of the wrong base type is refused under every option set. */
  lemma MismatchRejected(base: BaseCheck, o: FieldOptions, v: Value)
    requires !IsNullish(v) && !base(v)
    ensures !Accepts(base, o, v)
  {
    AcceptsMatchesExpected(base, o, v);
  }

  /** Validation reads only `default`, `nullable` and `required`, and the last
      two only for their truthiness. */
  lemma OnlyThreeKeysMatter(o1: FieldOptions, o2: FieldOptions)
    requires Read(o1.default) == Read(o2.default)
    requires TruthyOpt(o1.nullable) == TruthyOpt(o2.nullable)
    requires TruthyOpt(o1.required) == TruthyOpt(o2.required)
    ensures TransformSchema(o1) == TransformSchema(o2)
  {
  }

  // ---------------------------------------------------------------------------
  // FieldSpec (ModelFieldFactory)
  // ---------------------------------------------------------------------------

  /** `capitalCase` from change-case, supplied by the caller. */
  type CaseFn = string -> string

  /** The immutable part of a FieldSpec: an identity (the object the models
      share), the base check and the merged options without `name`. */
  datatype Field = Field(id: nat, base: BaseCheck, options: FieldOptions)

  /** The mutable part of a FieldSpec, shared by every model holding it. */
  datatype Naming = Naming(name: Value, displayName: Value)

  /** `ModelFieldFactory(schema, factoryOptions)(fieldOptions)`: the options are
      `factoryOptions` overridden by `fieldOptions`; `name` is taken out of them
      and becomes the initial name, and `displayName` falls back to the
      capitalised name. */
  function Define(id: nat, base: BaseCheck, factoryOptions: FieldOptions, fieldOptions: FieldOptions,
                  capital: CaseFn): (r: (Field, Naming))
    ensures r.0.id == id && r.0.options.name == None
    ensures r.0.options == Rest(Spread(factoryOptions, fieldOptions))
    ensures r.1.name == Read(Over(factoryOptions.name, fieldOptions.name))
    ensures Truthy(Read(r.0.options.displayName)) ==> r.1.displayName == Read(r.0.options.displayName)
    ensures !Truthy(Read(r.0.options.displayName)) ==> r.1.displayName == Str(capital(TextOf(r.1.name)))
  {
    var merged := Spread(factoryOptions, fieldOptions);
    var name := Read(merged.name);
    (Field(id, base, Rest(merged)), Naming(name, Or(Read(merged.displayName), Str(capital(TextOf(name))))))
  }

  /** The `value` a FieldSpec exposes: its default, called when it is a function. */
  function SpecValue(f: Field): Value {
    DefaultValue(f.options)
  }

  /** The `required` flag a FieldSpec or FieldInstance displays (`required || true`):
      always truthy, and `true` for every boolean or absent setting, so it says
      nothing about what validation does. */
  function DisplayedRequired(o: FieldOptions): (r: Value)
    ensures Truthy(r)
    ensures Read(o.required) in {Undefined, Null, Bool(false), Bool(true)} ==> r == Bool(true)
  {
    Or(Read(o.required), Bool(true))
  }

  /** A field whose displayed `required` is `true` still accepts `undefined`
      when `required` was never set. */
  lemma DisplayedRequiredHasNoEffect(base: BaseCheck)
    ensures DisplayedRequired(NoOptions) == Bool(true) && Accepts(base, NoOptions, Undefined)
  {
  }

  /** `setName(candidate)`: the first truthy name is kept; `displayName` is
      backfilled from the capitalised candidate only while it is falsy. */
  function SetName(n: Naming, candidate: string, capital: CaseFn): (r: Naming)
    ensures Truthy(n.name) ==> r.name == n.name
    ensures !Truthy(n.name) ==> r.name == Str(candidate)
    ensures candidate != "" ==> Truthy(r.name)
    ensures Truthy(n.displayName) ==> r.displayName == n.displayName
    ensures !Truthy(n.displayName) ==> r.displayName == Str(capital(candidate))
  {
    Naming(Or(n.name, Str(candidate)), Or(n.displayName, Str(capital(candidate))))
  }

  /** Once a field has been named, later `setName` calls keep that name. */
  lemma {:induction false} SetNameFirstWins(n: Naming, first: string, later: seq<string>, capital: CaseFn)
    requires first != ""
    ensures SetNames(SetName(n, first, capital), later, capital).name == SetName(n, first, capital).name
    decreases |later|
  {
    if later != [] {
      SetNameFirstWins(n, first, later[..|later| - 1], capital);
    }
  }

  /** `setName` applied to each candidate in turn. */
  function SetNames(n: Naming, candidates: seq<string>, capital: CaseFn): Naming
    decreases |candidates|
  {
    if candidates == [] then n
    else SetName(SetNames(n, candidates[..|candidates| - 1], capital), candidates[|candidates| - 1], capital)
  }

  /** The static `validate(value, extraOptions)`: the field's options overridden
      by `extraOptions` decide, following the decision table. */
  function Validate(f: Field, v: Value, extra: FieldOptions): (ok: bool)
    ensures ok == Expected(f.base, Spread(f.options, extra), v)
  {
    AcceptsMatchesExpected(f.base, Spread(f.options, extra), v);
    Accepts(f.base, Spread(f.options, extra), v)
  }

  /** Static validation of a freshly defined field layers the factory options,
      the definition options and the per-call options, later layers winning. */
  lemma DefinedFieldLayersOptions(id: nat, base: BaseCheck, factoryOptions: FieldOptions,
                                  fieldOptions: FieldOptions, extra: FieldOptions, capital: CaseFn, v: Value)
    ensures Validate(Define(id, base, factoryOptions, fieldOptions, capital).0, v, extra)
         == Accepts(base, Spread(Spread(factoryOptions, fieldOptions), extra), v)
  {
    var merged := Spread(factoryOptions, fieldOptions);
    OnlyThreeKeysMatter(Spread(Rest(merged), extra), Spread(merged, extra));
  }

  // ---------------------------------------------------------------------------
  // FieldInstance (calling a FieldSpec)
  // ---------------------------------------------------------------------------

  /** A field bound to one value. `passed` is the value it was called with and
      the one its `validate` checks; `value` is the displayed, resolved value. */
  datatype FieldInstance = FieldInstance(
    field: Field,
    options: FieldOptions,
    passed: Value,
    value: Value,
    required: Value,
    nullable: Value,
    default: Value,
    displayName: Value)

  /** The instance `value`: a truthy value is kept, `null` is kept, any other
      falsy value is replaced by the default (called when it is a function). */
  function InstanceValue(v: Value, o: FieldOptions): Value {
    if Truthy(v) then v else if v == Null then Null else DefaultValue(o)
  }

  /** Calling a FieldSpec with a value and extra options. A truthy `name`
      among the merged options renames the shared FieldSpec. */
  function Instantiate(f: Field, n: Naming, v: Value, extra: FieldOptions, capital: CaseFn): (r: (Naming, FieldInstance))
    ensures r.1.field == f && r.1.passed == v
    ensures Truthy(Read(Spread(f.options, extra).name)) ==> r.0.name == Read(Spread(f.options, extra).name)
    ensures !Truthy(Read(Spread(f.options, extra).name)) ==> r.0 == n
    ensures Truthy(v) ==> r.1.value == v
    ensures v == Null ==> r.1.value == Null
    ensures !Truthy(v) && v != Null ==> r.1.value == Call(Read(Spread(f.options, extra).default))
    ensures Truthy(r.1.required)
    ensures Truthy(Read(r.1.options.displayName)) ==> r.1.displayName == Read(r.1.options.displayName)
    ensures !Truthy(Read(r.1.options.displayName)) ==> r.1.displayName == Str(capital(TextOf(r.0.name)))
  {
    var merged := Spread(f.options, extra);
    var name := Or(Read(merged.name), n.name);
    var o := Rest(merged);
    (n.(name := name),
     FieldInstance(f, o, v, InstanceValue(v, o),
                   DisplayedRequired(o), Or(Read(o.nullable), Bool(false)), Or(Read(o.default), Null),
                   Or(Read(o.displayName), Str(capital(TextOf(name))))))
  }

  /** The instance `validate(extraOptions)`: checks the value the instance was
      called with, not the resolved `value`. */
  function InstanceValidate(i: FieldInstance, extra: FieldOptions): (ok: bool)
    ensures ok == Expected(i.field.base, Spread(i.options, extra), i.passed)
  {
    AcceptsMatchesExpected(i.field.base, Spread(i.options, extra), i.passed);
    Accepts(i.field.base, Spread(i.options, extra), i.passed)
  }

  /** An instance validated without extra options decides exactly as the
      static `validate` with the options the instance was made with. */
  lemma InstanceValidateMatchesStatic(f: Field, n: Naming, v: Value, extra: FieldOptions, capital: CaseFn)
    ensures InstanceValidate(Instantiate(f, n, v, extra, capital).1, NoOptions) == Validate(f, v, extra)
  {
    var merged := Spread(f.options, extra);
    OnlyThreeKeysMatter(Spread(Rest(merged), NoOptions), merged);
  }
}

=== FILE: filter.dfy ===
/** Filtering of records by field comparisons: the operator set, the comparison
    decision and the order-preserving filters built on it. */
module Filter {
  import opened Wrappers
  import opened JsValue
  import opened Record

  /** `FilterOperator` */
  datatype Operator =
    | EQ | NE | LT | GT | LTE | GTE
    | IN | NIN | INA | NINA
    | CONTAINS | NCONTAINS | CONTAINSS | NCONTAINSS
    | BETWEEN | NBETWEEN
    | NULL | NNULL
    | STARTS_WITH | NSTARTS_WITH | STARTS_WITHS | NSTARTS_WITHS
    | ENDS_WITH | NENDS_WITH | ENDS_WITHS | NENDS_WITHS
    | OR | AND

  /** The operators the comparison switch has a case for. */
  predicate Handled(op: Operator) {
    op in {EQ, NE, LT, GT, LTE, GTE, IN, NIN, CONTAINS, CONTAINSS, NCONTAINS,
           STARTS_WITH, STARTS_WITHS, NSTARTS_WITH, ENDS_WITH, NENDS_WITH, ENDS_WITHS}
  }

  predicate IsStringOperator(op: Operator) {
    op in {CONTAINS, CONTAINSS, NCONTAINS, STARTS_WITH, STARTS_WITHS, NSTARTS_WITH,
           ENDS_WITH, NENDS_WITH, ENDS_WITHS}
  }

  datatype FilterError = Unsupported(op: Operator)

  /** The JavaScript coercions the model does not spell out, supplied by the
      caller: `==` between values of different kinds that are not both
      nullish, and the relational comparison of values that need conversion
      (objects, arrays and functions, or a string against a non-string),
      where None is the comparison that involves NaN; and the decoding of a
      string comparison value that looks like a JSON array, boolean or quoted
      word, where None is a string that does not look like one or fails to
      parse. */
  datatype Host = Host(looseEquals: (Value, Value) -> bool, lessThan: (Value, Value) -> Option<bool>,
                       decode: string -> Option<Value>)

  // ---------------------------------------------------------------------------
  // JavaScript operators on values
  // ---------------------------------------------------------------------------

  /** The language type of a value (`null` is its own type here, unlike `typeof`). */
  datatype Kind = KUndefined | KNull | KBoolean | KNumber | KString | KObject

  function KindOf(v: Value): Kind {
    match v
    case Undefined => KUndefined
    case Null => KNull
    case Bool(_) => KBoolean
    case Num(_) => KNumber
    case Str(_) => KString
    case _ => KObject
  }

  /** `a == b` */
  function LooseEquals(h: Host, a: Value, b: Value): bool {
    if KindOf(a) == KindOf(b) then a == b
    else if IsNullish(a) || IsNullish(b) then IsNullish(a) && IsNullish(b)
    else h.looseEquals(a, b)
  }

  /** Lexicographic order of strings by code unit. */
  predicate StringLess(s: string, t: string) {
    if s == [] then t != []
    else if t == [] then false
    else if s[0] != t[0] then s[0] < t[0]
    else StringLess(s[1..], t[1..])
  }

  /** ToNumeric of a primitive that is not a string; None is NaN. */
  function NumberOf(v: Value): Option<int>
    requires v.Undefined? || v.Null? || v.Bool? || v.Num?
  {
    match v
    case Undefined => None
    case Null => Some(0)
    case Bool(b) => Some(if b then 1 else 0)
    case Num(n) => Some(n)
  }

  /** The abstract relational comparison `a < b`; None is `undefined` (NaN). */
  function IsLessThan(h: Host, a: Value, b: Value): Option<bool> {
    if a.Str? && b.Str? then Some(StringLess(a.s, b.s))
    else if (a.Undefined? || a.Null? || a.Bool? || a.Num?) && (b.Undefined? || b.Null? || b.Bool? || b.Num?) then
      match (NumberOf(a), NumberOf(b))
      case (Some(x), Some(y)) => Some(x < y)
      case _ => None
    else h.lessThan(a, b)
  }

  function ToLowerChar(c: char): char {
    if 'A' <= c <= 'Z' then (c as int + 32) as char else c
  }

  /** `toLowerCase()` on ASCII letters. */
  function ToLower(s: string): (r: string)
    ensures |r| == |s|
  {
    seq(|s|, i requires 0 <= i < |s| => ToLowerChar(s[i]))
  }

  /** `s.includes(t)` */
  predicate Includes(s: string, t: string) {
    exists i | 0 <= i <= |s| :: StartsWith(s[i..], t)
  }

  /** `s.startsWith(t)` */
  predicate StartsWith(s: string, t: string) {
    |t| <= |s| && s[..|t|] == t
  }

  /** `s.endsWith(t)` */
  predicate EndsWith(s: string, t: string) {
    |t| <= |s| && s[|s| - |t|..] == t
  }

  /** `Array.isArray(value) ? value.includes(x) : value === x` */
  predicate MatchesOne(value: Value, x: Value) {
    if value.Arr? then x in value.elems else value == x
  }

  /** Some element of the comparison array matches. */
  predicate MatchesAny(value: Value, xs: seq<Value>) {
    exists x | x in xs :: MatchesOne(value, x)
  }

  // ---------------------------------------------------------------------------
  // compareValues
  // ---------------------------------------------------------------------------

  /** The per-operator switch, reached once the null operators and the type
      gate have been decided. */
  function Switch(h: Host, value: Value, cv: Value, op: Operator, strict: bool): (r: Result<bool, FilterError>)
    ensures r.Failure? <==> !Handled(op)
  {
    match op
    case EQ => Success(if strict then value == cv else LooseEquals(h, value, cv))
    case NE => Success(if strict then value != cv else !LooseEquals(h, value, cv))
    case LT => Success(IsLessThan(h, value, cv) == Some(true))
    case GT => Success(IsLessThan(h, cv, value) == Some(true))
    case LTE => Success(IsLessThan(h, cv, value) == Some(false))
    case GTE => Success(IsLessThan(h, value, cv) == Some(false))
    case IN =>
      Success(if cv.Arr? then MatchesAny(value, cv.elems) else MatchesOne(value, cv))
    case NIN =>
      Success(if cv.Arr? then IsNullish(value) || !MatchesAny(value, cv.elems)
              else !MatchesOne(value, cv))
    case CONTAINS => Success(value.Str? && cv.Str? && Includes(value.s, cv.s))
    case CONTAINSS => Success(value.Str? && cv.Str? && Includes(ToLower(value.s), ToLower(cv.s)))
    case NCONTAINS => Success(value.Str? && cv.Str? && !Includes(value.s, cv.s))
    case STARTS_WITH => Success(value.Str? && cv.Str? && StartsWith(value.s, cv.s))
    case STARTS_WITHS => Success(value.Str? && cv.Str? && StartsWith(ToLower(value.s), ToLower(cv.s)))
    case NSTARTS_WITH => Success(value.Str? && cv.Str? && !StartsWith(value.s, cv.s))
    case ENDS_WITH => Success(value.Str? && cv.Str? && EndsWith(value.s, cv.s))
    case NENDS_WITH => Success(value.Str? && cv.Str? && !EndsWith(value.s, cv.s))
    case ENDS_WITHS => Success(value.Str? && cv.Str? && EndsWith(ToLower(value.s), ToLower(cv.s)))
    case _ => Failure(Unsupported(op))
  }

  /** The strict type gate lets the comparison through. */
  predicate GatePasses(value: Value, cv: Value, op: Operator, strict: bool) {
    !strict || TypeOf(value) == TypeOf(cv) || op in {EQ, NE, IN}
  }

  /** The comparison value `compareValues` works with: a string the host
      decodes is replaced by its decoding; anything else is kept. */
  function DecodeComparison(h: Host, raw: Value): (cv: Value)
    ensures !raw.Str? ==> cv == raw
  {
    if raw.Str? && h.decode(raw.s).Some? then h.decode(raw.s).value else raw
  }

  /** `compareValues(value, comparisonValue, operator, { strict })` */
  function CompareValues(h: Host, value: Value, raw: Value, op: Operator, strict: bool): (r: Result<bool, FilterError>)
    ensures r.Failure? ==> !Handled(op) && r.error == Unsupported(op)
    ensures !raw.Str? ==> r == CompareDecoded(h, value, raw, op, strict)
  {
    CompareDecoded(h, value, DecodeComparison(h, raw), op, strict)
  }

  /** The decision of `compareValues` once the comparison value is decoded. It
      throws exactly for an operator without a case that gets past the null
      checks and the type gate. */
  function CompareDecoded(h: Host, value: Value, cv: Value, op: Operator, strict: bool): (r: Result<bool, FilterError>)
    ensures r.Failure? <==>
              && !Handled(op)
              && GatePasses(value, cv, op, strict)
              && (op in {NULL, NNULL} ==> !IsNullish(value) && !IsNullish(cv))
    ensures r.Failure? ==> r.error == Unsupported(op)
  {
    if IsNullish(value) && op == NULL then Success(true)
    else if IsNullish(value) && op == NNULL then Success(false)
    else if IsNullish(cv) && op == NULL then Success(false)
    else if IsNullish(cv) && op == NNULL then Success(true)
    else if !GatePasses(value, cv, op, strict) then Success(false)
    else Switch(h, value, cv, op, strict)
  }

  /** A nullish value decides the null operators before anything else. */
  lemma NullishValueDecidesNullOperators(h: Host, value: Value, cv: Value, strict: bool)
    requires IsNullish(value)
    ensures CompareDecoded(h, value, cv, NULL, strict) == Success(true)
    ensures CompareDecoded(h, value, cv, NNULL, strict) == Success(false)
  {
  }

  /** Otherwise a nullish comparison value decides them the other way. */
  lemma NullishComparisonDecidesNullOperators(h: Host, value: Value, cv: Value, strict: bool)
    requires !IsNullish(value) && IsNullish(cv)
    ensures CompareDecoded(h, value, cv, NULL, strict) == Success(false)
    ensures CompareDecoded(h, value, cv, NNULL, strict) == Success(true)
  {
  }

  /** In strict mode a `typeof` mismatch fails every operator except `EQ`,
      `NE` and `IN` (and the null operators, decided earlier). */
  lemma StrictTypeMismatchFails(h: Host, value: Value, cv: Value, op: Operator)
    requires TypeOf(value) != TypeOf(cv) && op !in {EQ, NE, IN}
    requires op in {NULL, NNULL} ==> !IsNullish(value) && !IsNullish(cv)
    ensures CompareDecoded(h, value, cv, op, true) == Success(false)
  {
  }

  /** `EQ` and `NE` always answer, and answer oppositely. */
  lemma EqualityOperatorsAreNegations(h: Host, value: Value, cv: Value, strict: bool)
    ensures CompareDecoded(h, value, cv, EQ, strict).Success?
    ensures CompareDecoded(h, value, cv, NE, strict).Success?
    ensures CompareDecoded(h, value, cv, NE, strict).value == !CompareDecoded(h, value, cv, EQ, strict).value
    ensures strict ==> CompareDecoded(h, value, cv, EQ, strict).value == (value == cv)
  {
  }

  /** `IN`: membership of the value in an array comparison value (or, for an
      array value, a shared element); against a non-array, membership of the
      comparison value in an array value, or else equality. The type gate does
      not apply. */
  lemma InMembership(h: Host, value: Value, cv: Value, strict: bool)
    ensures CompareDecoded(h, value, cv, IN, strict).Success?
    ensures cv.Arr? && !value.Arr? ==>
              CompareDecoded(h, value, cv, IN, strict).value == (value in cv.elems)
    ensures cv.Arr? && value.Arr? ==>
              CompareDecoded(h, value, cv, IN, strict).value == exists x | x in cv.elems :: x in value.elems
    ensures !cv.Arr? && value.Arr? ==>
              CompareDecoded(h, value, cv, IN, strict).value == (cv in value.elems)
    ensures !cv.Arr? && !value.Arr? ==>
              CompareDecoded(h, value, cv, IN, strict).value == (value == cv)
  {
    if cv.Arr? && !value.Arr? {
      if value in cv.elems {
        assert MatchesOne(value, value);
      }
    }
  }

  /** `NIN` is the negation of `IN` for a defined value the type gate lets
      through. */
  lemma NinNegatesIn(h: Host, value: Value, cv: Value, strict: bool)
    requires !IsNullish(value) && GatePasses(value, cv, NIN, strict)
    ensures CompareDecoded(h, value, cv, NIN, strict).Success?
    ensures CompareDecoded(h, value, cv, NIN, strict).value == !CompareDecoded(h, value, cv, IN, strict).value
  {
  }

  /** ... but not for `null`: `NIN` holds for `null` against every array, in
      either mode, so against an array holding `null` both `IN` and `NIN` hold. */
  lemma NullIsInAndNotIn(h: Host, xs: seq<Value>, strict: bool)
    ensures CompareDecoded(h, Null, Arr(xs), NIN, strict) == Success(true)
    ensures Null in xs ==> CompareDecoded(h, Null, Arr(xs), IN, strict) == Success(true)
  {
    if Null in xs {
      var i :| 0 <= i < |xs| && xs[i] == Null;
      assert MatchesOne(Null, xs[i]);
    }
  }

  /** Every string operator fails unless both operands are strings, so a
      negated string operator is not the negation of its positive form. */
  lemma StringOperatorsNeedStrings(h: Host, value: Value, cv: Value, op: Operator, strict: bool)
    requires IsStringOperator(op) && !(value.Str? && cv.Str?)
    ensures CompareDecoded(h, value, cv, op, strict) == Success(false)
  {
    match op
    case CONTAINS =>
    case CONTAINSS =>
    case NCONTAINS =>
    case STARTS_WITH =>
    case STARTS_WITHS =>
    case NSTARTS_WITH =>
    case ENDS_WITH =>
    case NENDS_WITH =>
    case ENDS_WITHS =>
  }

  lemma NegatedStringOperatorsOnStrings(h: Host, s: string, t: string, strict: bool)
    ensures CompareDecoded(h, Str(s), Str(t), NCONTAINS, strict).value == !CompareDecoded(h, Str(s), Str(t), CONTAINS, strict).value
    ensures CompareDecoded(h, Str(s), Str(t), NSTARTS_WITH, strict).value == !CompareDecoded(h, Str(s), Str(t), STARTS_WITH, strict).value
    ensures CompareDecoded(h, Str(s), Str(t), NENDS_WITH, strict).value == !CompareDecoded(h, Str(s), Str(t), ENDS_WITH, strict).value
  {
  }

  // ---------------------------------------------------------------------------
  // filterItems and multiFilter
  // ---------------------------------------------------------------------------

  /** `ComparisonOptions`; an absent `strict` means strict. */
  datatype ComparisonOptions = ComparisonOptions(caseSensitive: Option<bool>, strict: Option<bool>)

  function IsStrict(o: ComparisonOptions): bool {
    o.strict.GetOr(true)
  }

  /** A record being filtered, a plain object. */
  type Item = map<string, Value>

  /** `item[field]`: a missing field reads as the member the record inherits
      from `Object.prototype`, or `undefined`. */
  function FieldOf(item: Item, field: string): Value {
    Property(item, field)
  }

  /** A record without its own `toString` still has one: filtering on that
      field with `NNULL` keeps the record. */
  lemma InheritedFieldIsRead(h: Host, item: Item, options: ComparisonOptions)
    requires "toString" !in item
    ensures ItemMatches(h, item, "toString", NNULL, Null, options) == Success(true)
  {
  }

  /** `items.filter(test)` where `test` may throw: the first item whose test
      throws decides the error; otherwise exactly the items passing the test,
      every copy of them, in their order. */
  function FilterBy(items: seq<Item>, test: Item -> Result<bool, FilterError>): (r: Result<seq<Item>, FilterError>)
    ensures r.Failure? <==> exists i | 0 <= i < |items| :: test(items[i]).Failure?
    ensures r.Failure? ==> exists i | 0 <= i < |items| :: test(items[i]) == Failure(r.error)
                                && forall j | 0 <= j < i :: test(items[j]).Success?
    ensures r.Success? ==> IsSubsequence(r.value, items)
    ensures r.Success? ==> forall x :: multiset(r.value)[x] == if test(x) == Success(true) then multiset(items)[x] else 0
    decreases |items|
  {
    if items == [] then Success([])
    else
      var tail := items[1..];
      assert items == [items[0]] + tail;
      match test(items[0])
      case Failure(e) => Failure(e)
      case Success(keep) =>
        match FilterBy(tail, test)
        case Failure(e) =>
          ShiftedFailure(items, test, e);
          Failure(e)
        case Success(rest) =>
          assert forall j | 0 <= j < |tail| :: tail[j] == items[j + 1];
          var r := if keep then [items[0]] + rest else rest;
          assert multiset(items) == multiset([items[0]]) + multiset(tail);
          assert keep ==> multiset(r) == multiset([items[0]]) + multiset(rest);
          assert keep ==> r[1..] == rest;
          Success(r)
  }

  lemma ShiftedFailure(items: seq<Item>, test: Item -> Result<bool, FilterError>, e: FilterError)
    requires |items| > 0 && test(items[0]).Success?
    requires exists i | 0 <= i < |items| - 1 :: test(items[1..][i]) == Failure(e)
                && forall j | 0 <= j < i :: test(items[1..][j]).Success?
    ensures exists i | 0 <= i < |items| :: test(items[i]) == Failure(e)
                && forall j | 0 <= j < i :: test(items[j]).Success?
  {
    var i :| 0 <= i < |items| - 1 && test(items[1..][i]) == Failure(e)
             && forall j | 0 <= j < i :: test(items[1..][j]).Success?;
    assert test(items[i + 1]) == Failure(e);
    assert forall j | 0 <= j < i + 1 :: test(items[j]).Success? by {
      forall j | 0 <= j < i + 1 ensures test(items[j]).Success? {
        if j > 0 { assert items[j] == items[1..][j - 1]; }
      }
    }
  }

  /** The test `filterItems` applies to one item. */
  function ItemMatches(h: Host, item: Item, field: string, op: Operator, cv: Value, options: ComparisonOptions)
    : Result<bool, FilterError>
  {
    CompareValues(h, FieldOf(item, field), cv, op, IsStrict(options))
  }

  /** `filterItems(items, field, operator, comparisonValue, options)`: throws
      with the first item whose comparison throws; otherwise keeps exactly the
      items whose comparison holds, in their order. */
  function FilterItems(h: Host, items: seq<Item>, field: string, op: Operator, cv: Value, options: ComparisonOptions)
    : (r: Result<seq<Item>, FilterError>)
    ensures r.Failure? <==> exists i | 0 <= i < |items| :: ItemMatches(h, items[i], field, op, cv, options).Failure?
    ensures r.Failure? ==> exists i | 0 <= i < |items| :: ItemMatches(h, items[i], field, op, cv, options) == Failure(r.error)
                                && forall j | 0 <= j < i :: ItemMatches(h, items[j], field, op, cv, options).Success?
    ensures r.Success? ==> IsSubsequence(r.value, items)
    ensures r.Success? ==> forall x | x in r.value :: ItemMatches(h, x, field, op, cv, options) == Success(true)
    ensures r.Success? ==> forall x | x in items && ItemMatches(h, x, field, op, cv, options) == Success(true) :: x in r.value
    ensures r.Success? ==> (forall x :: multiset(r.value)[x] ==
                              (if ItemMatches(h, x, field, op, cv, options) == Success(true) then multiset(items)[x] else 0))
  {
    var r := FilterBy(items, item => ItemMatches(h, item, field, op, cv, options));
    if r.Success? then
      assert forall x | x in r.value :: multiset(r.value)[x] > 0;
      assert forall x | x in items :: multiset(items)[x] > 0;
      r
    else r
  }

  /** One condition of `multiFilter`; absent options mean strict. */
  datatype Condition = Condition(field: string, op: Operator, value: Value, options: Option<ComparisonOptions>)

  function ConditionHolds(h: Host, item: Item, c: Condition): Result<bool, FilterError> {
    CompareValues(h, FieldOf(item, c.field), c.value, c.op, IsStrict(c.options.GetOr(ComparisonOptions(None, None))))
  }

  /** Every condition before position `i` holds. */
  ghost predicate HoldBefore(h: Host, item: Item, conditions: seq<Condition>, i: int)
    requires 0 <= i <= |conditions|
  {
    forall j | 0 <= j < i :: ConditionHolds(h, item, conditions[j]) == Success(true)
  }

  /** `conditions.every(...)`: stops at the first condition that fails or throws. */
  function AllHold(h: Host, item: Item, conditions: seq<Condition>): (r: Result<bool, FilterError>)
    ensures r == Success(true) <==> HoldBefore(h, item, conditions, |conditions|)
    ensures r.Failure? ==> exists i | 0 <= i < |conditions| :: ConditionHolds(h, item, conditions[i]) == Failure(r.error)
                                && HoldBefore(h, item, conditions, i)
    ensures forall i | 0 <= i < |conditions| && HoldBefore(h, item, conditions, i)
                       && ConditionHolds(h, item, conditions[i]).Failure? ::
              r == ConditionHolds(h, item, conditions[i])
    decreases |conditions|
  {
    if conditions == [] then Success(true)
    else
      var first := ConditionHolds(h, item, conditions[0]);
      if first != Success(true) then
        assert forall i | 0 < i <= |conditions| :: !HoldBefore(h, item, conditions, i);
        first
      else
        var rest := conditions[1..];
        var r := AllHold(h, item, rest);
        assert forall i | 0 < i <= |conditions| :: HoldBefore(h, item, conditions, i) == HoldBefore(h, item, rest, i - 1) by {
          forall i | 0 < i <= |conditions| ensures HoldBefore(h, item, conditions, i) == HoldBefore(h, item, rest, i - 1) {
            assert forall j | 0 <= j < i - 1 :: rest[j] == conditions[j + 1];
            assert forall j | 0 < j < i :: conditions[j] == rest[j - 1];
          }
        }
        assert forall i | 0 < i < |conditions| :: conditions[i] == rest[i - 1];
        r
  }

  /** `multiFilter(items, conditions)`: throws with the first item on which a
      condition throws; otherwise keeps exactly the items meeting every
      condition, in their order. */
  function MultiFilter(h: Host, items: seq<Item>, conditions: seq<Condition>): (r: Result<seq<Item>, FilterError>)
    ensures r.Failure? <==> exists i | 0 <= i < |items| :: AllHold(h, items[i], conditions).Failure?
    ensures r.Failure? ==> exists i | 0 <= i < |items| :: AllHold(h, items[i], conditions) == Failure(r.error)
                                && forall j | 0 <= j < i :: AllHold(h, items[j], conditions).Success?
    ensures r.Success? ==> IsSubsequence(r.value, items)
    ensures r.Success? ==> forall x, i | x in r.value && 0 <= i < |conditions| :: ConditionHolds(h, x, conditions[i]) == Success(true)
    ensures r.Success? ==> forall x | x in items && (forall i | 0 <= i < |conditions| :: ConditionHolds(h, x, conditions[i]) == Success(true)) ::
              x in r.value
    ensures r.Success? ==> (forall x :: multiset(r.value)[x] ==
                              (if AllHold(h, x, conditions) == Success(true) then multiset(items)[x] else 0))
  {
    var r := FilterBy(items, item => AllHold(h, item, conditions));
    if r.Success? then
      assert forall x | x in r.value :: multiset(r.value)[x] > 0;
      assert forall x | x in items :: multiset(items)[x] > 0;
      r
    else r
  }

  /** With no conditions every item is kept. */
  lemma MultiFilterNoConditions(h: Host, items: seq<Item>)
    ensures MultiFilter(h, items, []) == Success(items)
  {
    var test := (item: Item) => AllHold(h, item, []);
    var r := FilterBy(items, test).value;
    assert multiset(r) == multiset(items);
    SubsequenceOfAll(items, r);
  }

  /** A subsequence with every element's full multiplicity is the whole sequence. */
  lemma {:induction false} SubsequenceOfAll<T>(items: seq<T>, r: seq<T>)
    requires IsSubsequence(r, items)
    requires multiset(r) == multiset(items)
    ensures r == items
    decreases |items|
  {
    assert |r| == |multiset(r)| == |multiset(items)| == |items|;
    if items != [] {
      if r[0] != items[0] {
        SubsequenceLength(r, items[1..]);
        assert false;
      }
      assert multiset(r) == multiset([r[0]]) + multiset(r[1..]) by { assert r == [r[0]] + r[1..]; }
      assert multiset(items) == multiset([items[0]]) + multiset(items[1..]) by { assert items == [items[0]] + items[1..]; }
      assert multiset(r[1..]) == multiset(r) - multiset([r[0]]);
      assert multiset(items[1..]) == multiset(items) - multiset([items[0]]);
      SubsequenceOfAll(items[1..], r[1..]);
    }
  }

  lemma {:induction false} SubsequenceLength<T>(a: seq<T>, b: seq<T>)
    requires IsSubsequence(a, b)
    ensures |a| <= |b|
    decreases |b|
  {
    if a != [] && b != [] {
      if a[0] == b[0] { SubsequenceLength(a[1..], b[1..]); } else { SubsequenceLength(a, b[1..]); }
    }
  }

  /** A single condition filters exactly as `filterItems` does. */
  lemma MultiFilterSingle(h: Host, items: seq<Item>, c: Condition)
    ensures MultiFilter(h, items, [c]) == FilterItems(h, items, c.field, c.op, c.value, c.options.GetOr(ComparisonOptions(None, None)))
  {
    var o := c.options.GetOr(ComparisonOptions(None, None));
    var t1 := (item: Item) => AllHold(h, item, [c]);
    var t2 := (item: Item) => ItemMatches(h, item, c.field, c.op, c.value, o);
    assert MultiFilter(h, items, [c]) == FilterBy(items, t1);
    assert FilterItems(h, items, c.field, c.op, c.value, o) == FilterBy(items, t2);
    SameTestsSameFilter(items, t1, t2);
  }

  lemma {:induction false} SameTestsSameFilter(items: seq<Item>, t1: Item -> Result<bool, FilterError>,
                                               t2: Item -> Result<bool, FilterError>)
    requires forall x :: (t1(x) == Success(true) <==> t2(x) == Success(true))
    requires forall x :: (t1(x).Failure? <==> t2(x).Failure?) && (t1(x).Failure? ==> t1(x) == t2(x))
    ensures FilterBy(items, t1) == FilterBy(items, t2)
    decreases |items|
  {
    if items != [] {
      SameTestsSameFilter(items[1..], t1, t2);
    }
  }
}

=== FILE: js_value.dfy ===
/** JavaScript values as the core sees them, with the two coercions it relies
    on: `typeof` and truthiness. */
module JsValue {
  import opened Wrappers

  /** A JavaScript value. Numbers are integers; a function is a zero-argument
      function that always returns `output` (the only way the core uses
      functions is to call a `default` provider). */
  datatype Value =
    | Undefined
    | Null
    | Bool(b: bool)
    | Num(n: int)
    | Str(s: string)
    | Arr(elems: seq<Value>)
    | Obj(props: map<string, Value>)
    | Func(output: Value)

  /** The result of the `typeof` operator. */
  datatype JsType = TUndefined | TObject | TBoolean | TNumber | TString | TFunction

  function TypeOf(v: Value): JsType {
    match v
    case Undefined => TUndefined
    case Null => TObject
    case Bool(_) => TBoolean
    case Num(_) => TNumber
    case Str(_) => TString
    case Arr(_) => TObject
    case Obj(_) => TObject
    case Func(_) => TFunction
  }

  /** JavaScript truthiness (no NaN or -0, since numbers are integers). */
  predicate Truthy(v: Value) {
    match v
    case Undefined => false
    case Null => false
    case Bool(b) => b
    case Num(n) => n != 0
    case Str(s) => s != ""
    case _ => true
  }

  predicate IsNullish(v: Value) {
    v == Null || v == Undefined
  }

  /** `a || b` */
  function Or(a: Value, b: Value): Value {
    if Truthy(a) then a else b
  }

  /** `typeof v === 'function' ? v() : v` */
  function Call(v: Value): Value {
    if v.Func? then v.output else v
  }

  /** Reading a property that may be absent: an absent property reads `undefined`. */
  function Read(o: Option<Value>): Value {
    o.GetOr(Undefined)
  }

  /** Truthiness of a property that may be absent. */
  predicate TruthyOpt(o: Option<Value>) {
    Truthy(Read(o))
  }

  /** The string a value denotes when it is used as text; a non-string reads as
      the empty string. */
  function TextOf(v: Value): string {
    if v.Str? then v.s else ""
  }

  /** The methods every plain object inherits from `Object.prototype`. */
  const PrototypeMethods: set<string> := {
    "constructor", "hasOwnProperty", "isPrototypeOf", "propertyIsEnumerable", "toLocaleString",
    "toString", "valueOf", "__defineGetter__", "__defineSetter__", "__lookupGetter__", "__lookupSetter__"
  }

  /** What `o[k]` finds on `Object.prototype` when `o` has no own `k`: a
      method (a function; what it returns when called is not modelled, since
      the core never calls it), `Object.prototype` itself for `__proto__`, or
      nothing. */
  function PrototypeMember(k: string): Option<Value> {
    if k == "__proto__" then Some(Obj(map[]))
    else if k in PrototypeMethods then Some(Func(Undefined))
    else None
  }

  /** `o[k]` on a plain object with own properties `props`: an own property,
      else an inherited member, else `undefined`. */
  function Property(props: map<string, Value>, k: string): Value {
    if k in props then props[k] else Read(PrototypeMember(k))
  }

  /** An inherited member is found wherever the object has no own property of
      that name, and it is never `undefined`, so it is a value a field sees. */
  lemma InheritedMembersAreRead(props: map<string, Value>, k: string)
    requires k !in props
    ensures PrototypeMember(k).Some? <==> k in PrototypeMethods || k == "__proto__"
    ensures Property(props, k) != Undefined <==> PrototypeMember(k).Some?
    ensures k in PrototypeMethods ==> TypeOf(Property(props, k)) == TFunction
  {
  }
}

=== FILE: model.dfy ===
/** Models: named bundles of fields plus metadata, their composition
    (create/extend/merge/omit), validation, instantiation, and the side effects
    of building one (naming its fields, registering it). */
module Model {
  import opened Wrappers
  import opened JsValue
  import opened Field
  import opened Record
  import Reg = Registry

  type Meta = map<string, Value>

  /** A model: its fields in insertion order, its metadata, and the name of the
      registry it was registered in. */
  datatype ModelSpec = ModelSpec(fields: Obj<Field>, meta: Meta, registry: string)

  /** The mutable state models touch: the shared names of every FieldSpec (by
      FieldSpec identity), the registry cache, and the next free identity. */
  datatype WorldState = WorldState(names: map<nat, Naming>, registries: Reg.Instances<ModelSpec>, nextId: nat)

  ghost predicate WorldOk(w: WorldState) {
    Reg.DefaultName in w.registries && forall id | id in w.names :: id < w.nextId
  }

  type World = w: WorldState | WorldOk(w) witness WorldState(map[], Reg.Initial(), 0)

  /** The state at start-up: no fields yet, only the default registry. */
  function Start(): (w: World)
    ensures w.names == map[] && w.nextId == 0
    ensures w.registries.Keys == {Reg.DefaultName}
    ensures w.registries[Reg.DefaultName].name == Reg.DefaultName
    ensures w.registries[Reg.DefaultName].models == map[]
    ensures Truthy(w.registries[Reg.DefaultName].options.allowOverwrite)
  {
    WorldState(map[], Reg.Initial(), 0)
  }

  /** Every field of the table is a FieldSpec that exists in `w`. */
  ghost predicate Owns(w: World, fields: Obj<Field>) {
    forall k | k in fields.entries :: fields.entries[k].id in w.names
  }

  /** `meta.name`, the key a model is registered under. */
  function MetaName(meta: Meta): Value {
    if "name" in meta then meta["name"] else Undefined
  }

  /** `values[name]`, which finds an inherited `Object.prototype` member when
      `values` has no own `name`. */
  function ValueAt(values: map<string, Value>, k: string): Value {
    Property(values, k)
  }

  /** `options?.[name] || {}`. An inherited member found here is a function or
      `Object.prototype`, and spreading either adds no options. */
  function OptionsAt(opts: map<string, FieldOptions>, k: string): FieldOptions {
    if k in opts then opts[k] else NoOptions
  }

  // ---------------------------------------------------------------------------
  // FieldSpecs in the world
  // ---------------------------------------------------------------------------

  /** `ModelFieldFactory(schema, factoryOptions)(fieldOptions)`, allocating a
      new FieldSpec. */
  function NewField(w: World, base: Schema.BaseCheck, factoryOptions: FieldOptions, fieldOptions: FieldOptions,
                    capital: CaseFn): (r: (World, Field))
    ensures r.1.id !in w.names && r.1.id in r.0.names
    ensures r.0.names.Keys == w.names.Keys + {r.1.id}
    ensures forall id | id in w.names :: r.0.names[id] == w.names[id]
    ensures r.0.registries == w.registries
    ensures r.0.names[r.1.id].name == Read(Over(factoryOptions.name, fieldOptions.name))
    ensures forall v, extra :: Validate(r.1, v, extra) == Schema.Parse(base, TransformSchema(Spread(Spread(factoryOptions, fieldOptions), extra)), v).Some?
  {
    var (f, n) := Define(w.nextId, base, factoryOptions, fieldOptions, capital);
    forall v, extra ensures Validate(f, v, extra) == Accepts(base, Spread(Spread(factoryOptions, fieldOptions), extra), v) {
      DefinedFieldLayersOptions(w.nextId, base, factoryOptions, fieldOptions, extra, capital, v);
    }
    (WorldState(w.names[w.nextId := n], w.registries, w.nextId + 1), f)
  }

  /** `keys[i]` is the first key naming its field: it is not empty, and every
      earlier key holding the same field is the empty string, which names
      nothing. */
  ghost predicate FirstNamer(fields: Obj<Field>, keys: seq<string>, i: int)
    requires 0 <= i < |keys| && forall k | k in keys :: k in fields.entries
  {
    keys[i] != ""
    && forall j | 0 <= j < i :: fields.entries[keys[j]].id == fields.entries[keys[i]].id ==> keys[j] == ""
  }

  /** Likewise for `displayName`, which is named by `capital(key)`. */
  ghost predicate FirstDisplayNamer(fields: Obj<Field>, keys: seq<string>, i: int, capital: CaseFn)
    requires 0 <= i < |keys| && forall k | k in keys :: k in fields.entries
  {
    capital(keys[i]) != ""
    && forall j | 0 <= j < i :: fields.entries[keys[j]].id == fields.entries[keys[i]].id ==> capital(keys[j]) == ""
  }

  /** `setName(key)` on the field under each key, in key order. */
  function AttachNames(names: map<nat, Naming>, fields: Obj<Field>, keys: seq<string>, capital: CaseFn): (r: map<nat, Naming>)
    requires forall k | k in keys :: k in fields.entries && fields.entries[k].id in names
    ensures r.Keys == names.Keys
    ensures forall id | id in names && Truthy(names[id].name) :: r[id].name == names[id].name
    ensures forall id | id in names && Truthy(names[id].displayName) :: r[id].displayName == names[id].displayName
    ensures forall k | k in keys && k != "" :: Truthy(r[fields.entries[k].id].name)
    ensures forall i | 0 <= i < |keys| && FirstNamer(fields, keys, i) && !Truthy(names[fields.entries[keys[i]].id].name) ::
              r[fields.entries[keys[i]].id].name == Str(keys[i])
    ensures forall i | 0 <= i < |keys| && FirstDisplayNamer(fields, keys, i, capital)
                       && !Truthy(names[fields.entries[keys[i]].id].displayName) ::
              r[fields.entries[keys[i]].id].displayName == Str(capital(keys[i]))
    ensures forall id | id in names && (forall k | k in keys :: fields.entries[k].id != id) :: r[id] == names[id]
    decreases |keys|, 1
  {
    if keys == [] then names
    else
      var id := fields.entries[keys[0]].id;
      var named := names[id := SetName(names[id], keys[0], capital)];
      var r := AttachNames(named, fields, keys[1..], capital);
      FirstKeyNames(names, fields, keys, capital);
      FirstKeyDisplayNames(names, fields, keys, capital);
      r
  }

  /** The first key naming a field gives it its name. */
  lemma FirstKeyNames(names: map<nat, Naming>, fields: Obj<Field>, keys: seq<string>, capital: CaseFn)
    requires keys != [] && forall k | k in keys :: k in fields.entries && fields.entries[k].id in names
    ensures var id := fields.entries[keys[0]].id;
            var r := AttachNames(names[id := SetName(names[id], keys[0], capital)], fields, keys[1..], capital);
            forall i | 0 <= i < |keys| && FirstNamer(fields, keys, i) && !Truthy(names[fields.entries[keys[i]].id].name) ::
              r[fields.entries[keys[i]].id].name == Str(keys[i])
    decreases |keys|, 0
  {
    var id := fields.entries[keys[0]].id;
    var r := AttachNames(names[id := SetName(names[id], keys[0], capital)], fields, keys[1..], capital);
    forall i | 0 <= i < |keys| && FirstNamer(fields, keys, i) && !Truthy(names[fields.entries[keys[i]].id].name)
      ensures r[fields.entries[keys[i]].id].name == Str(keys[i])
    {
      if i > 0 {
        assert keys[i] == keys[1..][i - 1];
        assert forall j | 0 <= j < i - 1 :: keys[1..][j] == keys[j + 1];
        assert FirstNamer(fields, keys[1..], i - 1);
      }
    }
  }

  /** The first key whose capitalised form is not empty gives a field its
      `displayName`. */
  lemma FirstKeyDisplayNames(names: map<nat, Naming>, fields: Obj<Field>, keys: seq<string>, capital: CaseFn)
    requires keys != [] && forall k | k in keys :: k in fields.entries && fields.entries[k].id in names
    ensures var id := fields.entries[keys[0]].id;
            var r := AttachNames(names[id := SetName(names[id], keys[0], capital)], fields, keys[1..], capital);
            forall i | 0 <= i < |keys| && FirstDisplayNamer(fields, keys, i, capital)
                       && !Truthy(names[fields.entries[keys[i]].id].displayName) ::
              r[fields.entries[keys[i]].id].displayName == Str(capital(keys[i]))
    decreases |keys|, 0
  {
    var id := fields.entries[keys[0]].id;
    var r := AttachNames(names[id := SetName(names[id], keys[0], capital)], fields, keys[1..], capital);
    forall i | 0 <= i < |keys| && FirstDisplayNamer(fields, keys, i, capital)
               && !Truthy(names[fields.entries[keys[i]].id].displayName)
      ensures r[fields.entries[keys[i]].id].displayName == Str(capital(keys[i]))
    {
      if i > 0 {
        assert keys[i] == keys[1..][i - 1];
        assert forall j | 0 <= j < i - 1 :: keys[1..][j] == keys[j + 1];
        assert FirstDisplayNamer(fields, keys[1..], i - 1, capital);
      }
    }
  }

  // ---------------------------------------------------------------------------
  // ModelFactory: building and registering a model
  // ---------------------------------------------------------------------------

  /** The `registryOptions` argument of `ModelFactory`. */
  datatype RegistrySelection = RegistrySelection(name: string, options: Reg.RegistryOptions)

  /** The registry a new model goes to: the cached (or newly created) named
      registry when one is selected, the default registry otherwise. */
  function ChooseRegistry(regs: Reg.Instances<ModelSpec>, sel: Option<RegistrySelection>): (r: (Reg.Instances<ModelSpec>, string))
    requires Reg.DefaultName in regs
    ensures r.1 in r.0 && regs.Keys <= r.0.Keys && Reg.DefaultName in r.0
    ensures forall n | n in regs :: r.0[n] == regs[n]
    ensures sel.None? ==> r == (regs, Reg.DefaultName)
  {
    match sel
    case None => (regs, Reg.DefaultName)
    case Some(s) => (Reg.GetInstance(regs, s.name, s.options).0, s.name)
  }

  /** `ModelFactory({ fields, meta }, registryOptions)`. Every field is named
      after its key (first truthy name wins) before the model is registered
      under `meta.name`; when registration throws, the naming has already
      happened. */
  function Construct(w: World, fields: Obj<Field>, meta: Meta, sel: Option<RegistrySelection>, capital: CaseFn)
    : (r: (World, Result<ModelSpec, Reg.RegistryError>))
    requires Owns(w, fields)
    ensures r.0.registries.Keys == ChooseRegistry(w.registries, sel).0.Keys
    ensures var (regs, regName) := ChooseRegistry(w.registries, sel);
            r.1.Failure? <==> !Truthy(regs[regName].options.allowOverwrite) && MetaName(meta) in regs[regName].models
    ensures r.1.Failure? ==> r.0.registries == ChooseRegistry(w.registries, sel).0
    ensures r.1.Success? ==> r.1.value == ModelSpec(fields, meta, ChooseRegistry(w.registries, sel).1)
    ensures r.1.Success? ==> Registered(r.0, r.1.value, ChooseRegistry(w.registries, sel).0)
    ensures r.0.names.Keys == w.names.Keys && r.0.nextId == w.nextId
    ensures forall id | id in w.names && Truthy(w.names[id].name) :: r.0.names[id].name == w.names[id].name
    ensures forall id | id in w.names && Truthy(w.names[id].displayName) :: r.0.names[id].displayName == w.names[id].displayName
    ensures forall k | k in fields.entries && k != "" :: Truthy(r.0.names[fields.entries[k].id].name)
    ensures forall i | 0 <= i < |fields.keys| && FirstNamer(fields, fields.keys, i)
                       && !Truthy(w.names[fields.entries[fields.keys[i]].id].name) ::
              r.0.names[fields.entries[fields.keys[i]].id].name == Str(fields.keys[i])
    ensures forall i | 0 <= i < |fields.keys| && FirstDisplayNamer(fields, fields.keys, i, capital)
                       && !Truthy(w.names[fields.entries[fields.keys[i]].id].displayName) ::
              r.0.names[fields.entries[fields.keys[i]].id].displayName == Str(capital(fields.keys[i]))
  {
    var (regs, regName) := ChooseRegistry(w.registries, sel);
    var spec := ModelSpec(fields, meta, regName);
    var names := AttachNames(w.names, fields, fields.keys, capital);
    match Reg.RegisterIn(regs, regName, MetaName(meta), spec)
    case Failure(e) => (WorldState(names, regs, w.nextId), Failure(e))
    case Success(regs') =>
      Reg.RegisterThenGet(regs[regName], MetaName(meta), spec);
      (WorldState(names, regs', w.nextId), Success(spec))
  }

  /** `spec` is registered under its `meta.name` in its registry, every other
      entry of that registry is as in `before`, and every other registry is
      as in `before`. */
  ghost predicate Registered(w: World, spec: ModelSpec, before: Reg.Instances<ModelSpec>) {
    && spec.registry in w.registries && spec.registry in before
    && Reg.GetModel(w.registries[spec.registry], MetaName(spec.meta)) == Some(spec)
    && (forall k | k != MetaName(spec.meta) ::
          Reg.GetModel(w.registries[spec.registry], k) == Reg.GetModel(before[spec.registry], k))
    && (forall n | n in before && n != spec.registry :: n in w.registries && w.registries[n] == before[n])
  }

  // ---------------------------------------------------------------------------
  // Composition
  // ---------------------------------------------------------------------------

  /** `create({ fields, meta })`: a fresh model from the arguments alone; the
      model it is called on contributes nothing. */
  function Create(w: World, src: ModelSpec, fields: Obj<Field>, meta: Meta, capital: CaseFn)
    : (r: (World, Result<ModelSpec, Reg.RegistryError>))
    requires Owns(w, fields)
    ensures r.1.Success? ==> r.1.value == ModelSpec(fields, meta, Reg.DefaultName)
  {
    Construct(w, fields, meta, None, capital)
  }

  /** Which model `create` is called on makes no difference. */
  lemma CreateIgnoresSource(w: World, a: ModelSpec, b: ModelSpec, fields: Obj<Field>, meta: Meta, capital: CaseFn)
    requires Owns(w, fields)
    ensures Create(w, a, fields, meta, capital) == Create(w, b, fields, meta, capital)
  {
  }

  /** `extend({ fields, meta })`: the source's fields overridden by the new
      ones, the source's meta overridden by the new meta, registered in the
      default registry. */
  function Extend(w: World, src: ModelSpec, newFields: Obj<Field>, newMeta: Meta, capital: CaseFn)
    : (r: (World, Result<ModelSpec, Reg.RegistryError>))
    requires Owns(w, src.fields) && Owns(w, newFields)
    ensures r.1.Success? ==> r.1.value.registry == Reg.DefaultName
    ensures r.1.Success? ==> forall k ::
              Get(r.1.value.fields, k) == (if k in newFields.entries then Get(newFields, k) else Get(src.fields, k))
    ensures r.1.Success? ==> forall k ::
              (k in r.1.value.meta <==> k in src.meta || k in newMeta)
              && (k in newMeta ==> r.1.value.meta[k] == newMeta[k])
              && (k in src.meta && k !in newMeta ==> r.1.value.meta[k] == src.meta[k])
    ensures r.1.Success? ==> |src.fields.keys| <= |r.1.value.fields.keys|
                             && r.1.value.fields.keys[..|src.fields.keys|] == src.fields.keys
  {
    var fields := Overlay(src.fields, newFields);
    assert Owns(w, fields) by {
      forall k | k in fields.entries ensures fields.entries[k].id in w.names {
        if k in newFields.entries {} else {}
      }
    }
    Construct(w, fields, src.meta + newMeta, None, capital)
  }

  /** The fields of a list of models, in list order. */
  function FieldLayers(models: seq<ModelSpec>): (layers: seq<map<string, Field>>)
    ensures |layers| == |models|
    ensures forall i | 0 <= i < |models| :: layers[i] == models[i].fields.entries
  {
    if models == [] then [] else [models[0].fields.entries] + FieldLayers(models[1..])
  }

  function MetaLayers(models: seq<ModelSpec>): (layers: seq<Meta>)
    ensures |layers| == |models|
    ensures forall i | 0 <= i < |models| :: layers[i] == models[i].meta
  {
    if models == [] then [] else [models[0].meta] + MetaLayers(models[1..])
  }

  /** `newFields = { ...newFields, ...model.fields }` for each model in turn. */
  function MergeFields(acc: Obj<Field>, models: seq<ModelSpec>): (r: Obj<Field>)
    ensures r.entries == UnionAll(acc.entries, FieldLayers(models))
    ensures |acc.keys| <= |r.keys| && r.keys[..|acc.keys|] == acc.keys
    decreases |models|
  {
    if models == [] then acc
    else
      assert FieldLayers(models)[1..] == FieldLayers(models[1..]);
      var next := Overlay(acc, models[0].fields);
      var r := MergeFields(next, models[1..]);
      assert r.keys[..|acc.keys|] == r.keys[..|next.keys|][..|acc.keys|];
      r
  }

  /** `mergedMeta = { ...mergedMeta, ...model.meta }` for each model in turn. */
  function MergeMeta(acc: Meta, models: seq<ModelSpec>): (r: Meta)
    ensures r == UnionAll(acc, MetaLayers(models))
    decreases |models|
  {
    if models == [] then acc
    else
      assert MetaLayers(models)[1..] == MetaLayers(models[1..]);
      MergeMeta(acc + models[0].meta, models[1..])
  }

  ghost predicate OwnsAll(w: World, models: seq<ModelSpec>) {
    forall i | 0 <= i < |models| :: Owns(w, models[i].fields)
  }

  lemma {:induction false} MergeFieldsOwned(w: World, acc: Obj<Field>, models: seq<ModelSpec>)
    requires Owns(w, acc) && OwnsAll(w, models)
    ensures Owns(w, MergeFields(acc, models))
    decreases |models|
  {
    if models != [] {
      assert Owns(w, models[0].fields);
      MergeFieldsOwned(w, Overlay(acc, models[0].fields), models[1..]);
    }
  }

  /** `merge(models, newMeta)`: the source's fields, then each model's fields in
      list order, a later model winning on a shared key; meta folded the same
      way with `newMeta` applied last; registered in the default registry. */
  function Merge(w: World, src: ModelSpec, models: seq<ModelSpec>, newMeta: Meta, capital: CaseFn)
    : (r: (World, Result<ModelSpec, Reg.RegistryError>))
    requires Owns(w, src.fields) && OwnsAll(w, models)
    ensures r.1.Success? ==> r.1.value.registry == Reg.DefaultName
    ensures r.1.Success? ==> forall k ::
              Get(r.1.value.fields, k) == LastHolder(src.fields.entries, FieldLayers(models), k)
    ensures r.1.Success? ==> forall k ::
              (if k in r.1.value.meta then Some(r.1.value.meta[k]) else None)
              == LastHolder(src.meta, MetaLayers(models) + [newMeta], k)
    ensures r.1.Success? ==> |src.fields.keys| <= |r.1.value.fields.keys|
                             && r.1.value.fields.keys[..|src.fields.keys|] == src.fields.keys
  {
    MergeFieldsOwned(w, src.fields, models);
    var fields := MergeFields(src.fields, models);
    var meta := MergeMeta(src.meta, models) + newMeta;
    forall k ensures Get(fields, k) == LastHolder(src.fields.entries, FieldLayers(models), k) {
      UnionAllLastWins(src.fields.entries, FieldLayers(models), k);
    }
    forall k ensures (if k in meta then Some(meta[k]) else None) == LastHolder(src.meta, MetaLayers(models) + [newMeta], k) {
      UnionAllLastWins(src.meta, MetaLayers(models), k);
      assert (MetaLayers(models) + [newMeta])[..|MetaLayers(models)|] == MetaLayers(models);
    }
    Construct(w, fields, meta, None, capital)
  }

  /** `omit(names, newMeta)`: the source's fields without the listed names
      (unknown names are ignored), the source's meta overridden by `newMeta`,
      registered in the default registry. */
  function OmitFields(w: World, src: ModelSpec, names: seq<string>, newMeta: Meta, capital: CaseFn)
    : (r: (World, Result<ModelSpec, Reg.RegistryError>))
    requires Owns(w, src.fields)
    ensures r.1.Success? ==> r.1.value.registry == Reg.DefaultName
    ensures r.1.Success? ==> forall k ::
              Get(r.1.value.fields, k) == (if k in names then None else Get(src.fields, k))
    ensures r.1.Success? ==> forall k | k in src.meta && k !in newMeta :: k in r.1.value.meta && r.1.value.meta[k] == src.meta[k]
    ensures r.1.Success? ==> forall k | k in newMeta :: k in r.1.value.meta && r.1.value.meta[k] == newMeta[k]
    ensures r.1.Success? ==> forall k | k in r.1.value.meta :: k in src.meta || k in newMeta
  {
    var fields := Omit(src.fields, names);
    assert Owns(w, fields) by {
      forall k | k in fields.entries ensures fields.entries[k].id in w.names {
        assert Get(fields, k) == Get(src.fields, k);
      }
    }
    Construct(w, fields, src.meta + newMeta, None, capital)
  }

  /** What `fields[name]` finds: a field the model holds, a member inherited
      from `Object.prototype`, or nothing (`undefined`). */
  datatype FieldLookup = FoundField(field: Field) | Inherited(member: Value) | NoField

  /** `getField(name)` */
  function GetField(spec: ModelSpec, name: string): (r: FieldLookup)
    ensures r.FoundField? <==> name in spec.fields.keys
    ensures r.FoundField? ==> r.field == spec.fields.entries[name]
    ensures name !in spec.fields.entries ==> (r.Inherited? <==> PrototypeMember(name).Some?)
    ensures r.Inherited? ==> Some(r.member) == PrototypeMember(name)
  {
    if name in spec.fields.entries then FoundField(spec.fields.entries[name]) else NotHeld(name)
  }

  /** What `fields[name]` finds when the model holds no field `name`. */
  function NotHeld(name: string): FieldLookup {
    match PrototypeMember(name)
    case Some(m) => Inherited(m)
    case None => NoField
  }

  /** After `extend`, `getField` finds the new field under a new key and the
      source's field under every other key. */
  lemma GetFieldAfterExtend(w: World, src: ModelSpec, newFields: Obj<Field>, newMeta: Meta, capital: CaseFn, k: string)
    requires Owns(w, src.fields) && Owns(w, newFields)
    requires Extend(w, src, newFields, newMeta, capital).1.Success?
    ensures GetField(Extend(w, src, newFields, newMeta, capital).1.value, k)
            == if k in newFields.entries then FoundField(newFields.entries[k]) else GetField(src, k)
  {
  }

  /** After `omit`, `getField` finds no field under an omitted key (only what
      every object inherits) and the source's field under every other key. */
  lemma GetFieldAfterOmit(w: World, src: ModelSpec, names: seq<string>, newMeta: Meta, capital: CaseFn, k: string)
    requires Owns(w, src.fields)
    requires OmitFields(w, src, names, newMeta, capital).1.Success?
    ensures GetField(OmitFields(w, src, names, newMeta, capital).1.value, k)
            == if k in names then NotHeld(k) else GetField(src, k)
  {
  }

  /** `getFieldNames()`: every field name once, in insertion order. */
  function GetFieldNames(spec: ModelSpec): (names: seq<string>)
    ensures forall k :: k in names <==> GetField(spec, k).FoundField?
    ensures Distinct(names)
  {
    spec.fields.keys
  }

  // ---------------------------------------------------------------------------
  // Validation
  // ---------------------------------------------------------------------------

  /** The static validation of the fields under `keys`, in order. */
  function AllValid(fields: Obj<Field>, keys: seq<string>, values: map<string, Value>, opts: map<string, FieldOptions>)
    : (ok: bool)
    requires forall k | k in keys :: k in fields.entries
    ensures ok <==> forall k | k in keys :: Validate(fields.entries[k], ValueAt(values, k), OptionsAt(opts, k))
    decreases |keys|
  {
    if keys == [] then true
    else Validate(fields.entries[keys[0]], ValueAt(values, keys[0]), OptionsAt(opts, keys[0]))
         && AllValid(fields, keys[1..], values, opts)
  }

  /** `validate(values, options)`: true iff every field accepts its value under
      its own per-field options; keys of `values` that are not fields are not
      looked at. */
  function ValidateModel(spec: ModelSpec, values: map<string, Value>, opts: map<string, FieldOptions>): (ok: bool)
    ensures ok <==> forall k | k in spec.fields.entries ::
                      Validate(spec.fields.entries[k], ValueAt(values, k), OptionsAt(opts, k))
  {
    AllValid(spec.fields, spec.fields.keys, values, opts)
  }

  /** Entries of `values` that are not fields do not affect validation. */
  lemma ValidateIgnoresOtherKeys(spec: ModelSpec, values: map<string, Value>, extra: map<string, Value>,
                                 opts: map<string, FieldOptions>)
    requires forall k | k in extra :: k !in spec.fields.entries
    ensures ValidateModel(spec, values + extra, opts) == ValidateModel(spec, values, opts)
  {
    forall k | k in spec.fields.entries ensures ValueAt(values + extra, k) == ValueAt(values, k) {
    }
  }

  // ---------------------------------------------------------------------------
  // Model instances
  // ---------------------------------------------------------------------------

  /** A model called with values: one field instance per field. */
  datatype ModelInstance = ModelInstance(fields: Obj<FieldInstance>)

  /** `inst` is the field `f` called with `v` and the per-call options `x`
      layered over the field's own options. */
  ghost predicate InstanceOf(inst: FieldInstance, f: Field, v: Value, x: FieldOptions) {
    inst.field == f && inst.passed == v && inst.options == Rest(Spread(f.options, Spread(f.options, x)))
  }

  /** Instantiates the fields under `keys` in order, each with the field's own
      options overridden by its per-call options, threading the shared names. */
  function InstantiateAll(names: map<nat, Naming>, fields: Obj<Field>, keys: seq<string>,
                          values: map<string, Value>, opts: map<string, FieldOptions>, capital: CaseFn)
    : (r: (map<nat, Naming>, map<string, FieldInstance>))
    requires forall k | k in keys :: k in fields.entries && fields.entries[k].id in names
    ensures r.0.Keys == names.Keys
    ensures r.1.Keys == set k | k in keys
    ensures forall k | k in keys :: InstanceOf(r.1[k], fields.entries[k], ValueAt(values, k), OptionsAt(opts, k))
    decreases |keys|
  {
    if keys == [] then (names, map[])
    else
      var k := keys[0];
      var f := fields.entries[k];
      var (n, inst) := Instantiate(f, names[f.id], ValueAt(values, k), Spread(f.options, OptionsAt(opts, k)), capital);
      var (names', rest) := InstantiateAll(names[f.id := n], fields, keys[1..], values, opts, capital);
      var all := map[k := inst] + rest;
      assert InstanceOf(inst, f, ValueAt(values, k), OptionsAt(opts, k));
      InstancesExtend(fields, keys, values, opts, inst, rest);
      (names', all)
  }

  lemma InstancesExtend(fields: Obj<Field>, keys: seq<string>, values: map<string, Value>,
                        opts: map<string, FieldOptions>, inst: FieldInstance, rest: map<string, FieldInstance>)
    requires keys != [] && forall k | k in keys :: k in fields.entries
    requires InstanceOf(inst, fields.entries[keys[0]], ValueAt(values, keys[0]), OptionsAt(opts, keys[0]))
    requires rest.Keys == set k | k in keys[1..]
    requires forall k | k in keys[1..] :: InstanceOf(rest[k], fields.entries[k], ValueAt(values, k), OptionsAt(opts, k))
    ensures (map[keys[0] := inst] + rest).Keys == set k | k in keys
    ensures forall k | k in keys ::
              InstanceOf((map[keys[0] := inst] + rest)[k], fields.entries[k], ValueAt(values, k), OptionsAt(opts, k))
  {
    var all := map[keys[0] := inst] + rest;
    assert forall j :: j in keys <==> j == keys[0] || j in keys[1..];
    forall j | j in keys
      ensures InstanceOf(all[j], fields.entries[j], ValueAt(values, j), OptionsAt(opts, j))
    {
      if j != keys[0] { assert j in keys[1..]; }
    }
  }

  /** Calling a model with `values` and per-field `options`. */
  function InstantiateModel(w: World, spec: ModelSpec, values: map<string, Value>, opts: map<string, FieldOptions>,
                            capital: CaseFn)
    : (r: (World, ModelInstance))
    requires Owns(w, spec.fields)
    ensures r.0.registries == w.registries && r.0.names.Keys == w.names.Keys
    ensures r.1.fields.keys == spec.fields.keys
    ensures forall k | k in spec.fields.entries ::
              InstanceOf(r.1.fields.entries[k], spec.fields.entries[k], ValueAt(values, k), OptionsAt(opts, k))
  {
    var (names, insts) := InstantiateAll(w.names, spec.fields, spec.fields.keys, values, opts, capital);
    InstanceTableValid(spec.fields, insts);
    var table := Rec(spec.fields.keys, insts);
    assert table.entries == insts;
    (WorldState(names, w.registries, w.nextId), ModelInstance(table))
  }

  /** Instances under exactly the keys of a table, in its key order, form a valid table. */
  lemma InstanceTableValid(fields: Obj<Field>, insts: map<string, FieldInstance>)
    requires insts.Keys == set k | k in fields.keys
    ensures Valid(Rec(fields.keys, insts))
  {
  }

  /** The instance `validate()` over the fields under `keys`. */
  function AllInstancesValid(insts: Obj<FieldInstance>, keys: seq<string>): (ok: bool)
    requires forall k | k in keys :: k in insts.entries
    ensures ok <==> forall k | k in keys :: InstanceValidate(insts.entries[k], NoOptions)
    decreases |keys|
  {
    if keys == [] then true
    else InstanceValidate(insts.entries[keys[0]], NoOptions) && AllInstancesValid(insts, keys[1..])
  }

  /** A model instance's `validate()`: every field instance validates. */
  function ValidateInstance(mi: ModelInstance): (ok: bool)
    ensures ok <==> forall k | k in mi.fields.entries :: InstanceValidate(mi.fields.entries[k], NoOptions)
  {
    AllInstancesValid(mi.fields, mi.fields.keys)
  }

  /** Building an instance and validating it decides exactly as validating
      the same values with the same per-field options through the model. */
  lemma InstanceValidationAgrees(w: World, spec: ModelSpec, values: map<string, Value>,
                                 opts: map<string, FieldOptions>, capital: CaseFn)
    requires Owns(w, spec.fields)
    ensures ValidateInstance(InstantiateModel(w, spec, values, opts, capital).1) == ValidateModel(spec, values, opts)
  {
    var (names, insts) := InstantiateAll(w.names, spec.fields, spec.fields.keys, values, opts, capital);
    forall k | k in spec.fields.entries
      ensures InstanceValidate(insts[k], NoOptions)
           == Validate(spec.fields.entries[k], ValueAt(values, k), OptionsAt(opts, k))
    {
      var f := spec.fields.entries[k];
      var x := OptionsAt(opts, k);
      SpreadAbsorbs(f.options, x);
      OnlyThreeKeysMatter(Spread(Rest(Spread(f.options, x)), NoOptions), Spread(f.options, x));
    }
  }
}

=== FILE: record.dfy ===
/** A JavaScript object with string keys, as models use it for their fields:
    a key→value table together with the order in which keys were inserted. */
module Record {
  import opened Wrappers

  datatype Rec<V> = Rec(keys: seq<string>, entries: map<string, V>)

  ghost predicate Distinct(s: seq<string>) {
    forall i, j :: 0 <= i < j < |s| ==> s[i] != s[j]
  }

  /** The key order lists every key of the table exactly once. */
  ghost predicate Valid<V>(r: Rec<V>) {
    Distinct(r.keys) && forall k :: k in r.entries <==> k in r.keys
  }

  type Obj<V> = r: Rec<V> | Valid(r) witness Rec([], map[])

  /** `obj[k]`, which is `undefined` for a missing key. */
  function Get<V>(r: Obj<V>, k: string): Option<V> {
    if k in r.entries then Some(r.entries[k]) else None
  }

  /** `a` is `b` with some elements left out, the rest in their order. */
  predicate IsSubsequence<T(==)>(a: seq<T>, b: seq<T>)
    decreases |b|
  {
    if a == [] then true
    else if b == [] then false
    else if a[0] == b[0] then IsSubsequence(a[1..], b[1..])
    else IsSubsequence(a, b[1..])
  }

  /** The keys of `s` that are not in `drop`, in their order. */
  function Keep(s: seq<string>, drop: set<string>): (r: seq<string>)
    ensures forall k :: k in r <==> k in s && k !in drop
    ensures |r| <= |s|
    ensures forall k :: k in s && k in drop ==> |r| < |s|
    ensures Distinct(s) ==> Distinct(r)
  {
    if s == [] then []
    else
      var tail := Keep(s[1..], drop);
      assert forall k :: k in s[1..] ==> k in s;
      if s[0] in drop then tail else [s[0]] + tail
  }

  /** `Keep` leaves the kept keys in their order. */
  lemma {:induction false} KeepKeepsOrder(s: seq<string>, drop: set<string>)
    ensures IsSubsequence(Keep(s, drop), s)
    decreases |s|
  {
    if s != [] {
      KeepKeepsOrder(s[1..], drop);
      var tail := Keep(s[1..], drop);
      if s[0] !in drop {
        assert ([s[0]] + tail)[1..] == tail;
      }
    }
  }

  /** `{ ...a, ...b }`: `b`'s entries replace `a`'s on shared keys; `a`'s keys
      keep their positions and `b`'s other keys follow in `b`'s order. */
  function Overlay<V>(a: Obj<V>, b: Obj<V>): (r: Obj<V>)
    ensures r.entries == a.entries + b.entries
    ensures |a.keys| <= |r.keys| && r.keys[..|a.keys|] == a.keys
    ensures forall k :: k in r.keys[|a.keys|..] <==> k in b.entries && k !in a.entries
  {
    var extra := Keep(b.keys, a.entries.Keys);
    var keys := a.keys + extra;
    DistinctAppend(a.keys, extra);
    assert keys[|a.keys|..] == extra;
    Rec(keys, a.entries + b.entries)
  }

  /** The right side's new keys follow in the right side's order. */
  lemma OverlayKeepsOrder<V>(a: Obj<V>, b: Obj<V>)
    ensures IsSubsequence(Overlay(a, b).keys[|a.keys|..], b.keys)
  {
    KeepKeepsOrder(b.keys, a.entries.Keys);
    assert Overlay(a, b).keys[|a.keys|..] == Keep(b.keys, a.entries.Keys);
  }

  lemma DistinctAppend(x: seq<string>, y: seq<string>)
    requires Distinct(x) && Distinct(y) && forall k | k in y :: k !in x
    ensures Distinct(x + y)
  {
    var xy := x + y;
    forall i, j | 0 <= i < j < |xy| ensures xy[i] != xy[j] {
      if j >= |x| && i < |x| {
        assert xy[j] in y;
        assert xy[i] in x;
      }
    }
  }

  /** The object without the listed keys; names it does not hold are ignored. */
  function Omit<V>(a: Obj<V>, names: seq<string>): (r: Obj<V>)
    ensures forall k :: Get(r, k) == (if k in names then None else Get(a, k))
    ensures forall k :: k in r.keys <==> k in a.keys && k !in names
    ensures |r.keys| <= |a.keys|
    ensures forall k :: k in names && k in a.entries ==> |r.keys| < |a.keys|
  {
    Rec(Keep(a.keys, set k | k in names), a.entries - set k | k in names)
  }

  /** `Omit` leaves the remaining keys in their order. */
  lemma OmitKeepsOrder<V>(a: Obj<V>, names: seq<string>)
    ensures IsSubsequence(Omit(a, names).keys, a.keys)
  {
    KeepKeepsOrder(a.keys, set k | k in names);
  }

  // ---------------------------------------------------------------------------
  // Left-to-right folds of spreads
  // ---------------------------------------------------------------------------

  /** `acc = { ...acc, ...layers[0] }; acc = { ...acc, ...layers[1] }; …` on tables. */
  function UnionAll<V>(acc: map<string, V>, layers: seq<map<string, V>>): map<string, V>
    decreases |layers|
  {
    if layers == [] then acc else UnionAll(acc + layers[0], layers[1..])
  }

  /** The entry for `k` in the last layer holding `k`, or else in `base`:
      a reference definition of what the fold computes, read from the right. */
  function LastHolder<V>(base: map<string, V>, layers: seq<map<string, V>>, k: string): Option<V>
    decreases |layers|
  {
    if layers == [] then (if k in base then Some(base[k]) else None)
    else if k in layers[|layers| - 1] then Some(layers[|layers| - 1][k])
    else LastHolder(base, layers[..|layers| - 1], k)
  }

  lemma {:induction false} LastHolderOfUnion<V>(base: map<string, V>, first: map<string, V>,
                                                layers: seq<map<string, V>>, k: string)
    ensures LastHolder(base + first, layers, k) == LastHolder(base, [first] + layers, k)
    decreases |layers|
  {
    if layers != [] {
      assert ([first] + layers)[..|[first] + layers| - 1] == [first] + layers[..|layers| - 1];
      LastHolderOfUnion(base, first, layers[..|layers| - 1], k);
    } else {
      assert ([first] + layers)[..0] == [];
    }
  }

  /** The fold gives every key the entry of the last layer that holds it. */
  lemma {:induction false} UnionAllLastWins<V>(acc: map<string, V>, layers: seq<map<string, V>>, k: string)
    ensures (if k in UnionAll(acc, layers) then Some(UnionAll(acc, layers)[k]) else None)
         == LastHolder(acc, layers, k)
    decreases |layers|
  {
    if layers != [] {
      UnionAllLastWins(acc + layers[0], layers[1..], k);
      LastHolderOfUnion(acc, layers[0], layers[1..], k);
      assert [layers[0]] + layers[1..] == layers;
    }
  }
}

=== FILE: registry.dfy ===
/** Model registries: named tables of models with an overwrite policy, and the
    process-wide cache of registries by name. */
module Registry {
  import opened Wrappers
  import opened JsValue

  /** `ModelRegistryOptions`; only `allowOverwrite` is read, for its truthiness. */
  datatype RegistryOptions = RegistryOptions(allowOverwrite: Value)

  /** A registry. Models are keyed by whatever `meta.name` holds, so a model
      without a name is registered under `undefined`. */
  datatype Registry<M> = Registry(name: string, options: RegistryOptions, models: map<Value, M>)

  datatype RegistryError = DuplicateModel(name: Value)

  /** The process-wide cache of registries by name (`ModelRegistry.instances`). */
  type Instances<M> = map<string, Registry<M>>

  const DefaultName := "default"

  const DefaultOptions := RegistryOptions(Bool(true))

  /** The cache at start-up, holding only the default registry. */
  function Initial<M>(): (inst: Instances<M>)
    ensures inst.Keys == {DefaultName} && inst[DefaultName].models == map[]
    ensures Truthy(inst[DefaultName].options.allowOverwrite)
  {
    map[DefaultName := Registry(DefaultName, DefaultOptions, map[])]
  }

  /** `ModelRegistry.getInstance(name, options)`: the cached registry when there
      is one, otherwise a new empty registry with `options`, cached from now on. */
  function GetInstance<M>(inst: Instances<M>, name: string, options: RegistryOptions): (r: (Instances<M>, Registry<M>))
    ensures name in r.0 && r.0[name] == r.1
    ensures name in inst ==> r.0 == inst
    ensures name !in inst ==> r.1 == Registry(name, options, map[]) && r.0 == inst[name := r.1]
  {
    if name in inst then (inst, inst[name])
    else
      var reg := Registry(name, options, map[]);
      (inst[name := reg], reg)
  }

  /** Later calls for the same name ignore their options: the first call's win. */
  lemma FirstOptionsWin<M>(inst: Instances<M>, name: string, first: RegistryOptions, later: RegistryOptions)
    ensures var (inst1, reg1) := GetInstance(inst, name, first);
            GetInstance(inst1, name, later) == (inst1, reg1)
  {
  }

  /** `register(key, model)`: throws when overwriting is not allowed and the key
      is taken; otherwise inserts or replaces the entry. */
  function Register<M>(reg: Registry<M>, key: Value, model: M): (r: Result<Registry<M>, RegistryError>)
    ensures r.Failure? <==> !Truthy(reg.options.allowOverwrite) && key in reg.models
    ensures r.Failure? ==> r.error == DuplicateModel(key)
    ensures r.Success? ==> r.value.name == reg.name && r.value.options == reg.options
    ensures r.Success? ==> r.value.models.Keys == reg.models.Keys + {key}
  {
    if !Truthy(reg.options.allowOverwrite) && key in reg.models then Failure(DuplicateModel(key))
    else Success(reg.(models := reg.models[key := model]))
  }

  /** `getModel(key)` */
  function GetModel<M>(reg: Registry<M>, key: Value): Option<M> {
    if key in reg.models then Some(reg.models[key]) else None
  }

  /** `getAllModel()`: a snapshot of every entry. */
  function GetAllModel<M>(reg: Registry<M>): (all: map<Value, M>)
    ensures forall k :: k in all <==> GetModel(reg, k).Some?
    ensures forall k | k in all :: GetModel(reg, k) == Some(all[k])
  {
    reg.models
  }

  /** `clear()` */
  function Clear<M>(reg: Registry<M>): (r: Registry<M>)
    ensures forall k :: GetModel(r, k) == None
    ensures r.name == reg.name && r.options == reg.options
  {
    reg.(models := map[])
  }

  /** A fresh key never collides, whatever the policy. */
  lemma RegisterFreshSucceeds<M>(reg: Registry<M>, key: Value, model: M)
    requires GetModel(reg, key).None?
    ensures Register(reg, key, model).Success?
  {
  }

  /** After a successful registration the key looks up the new model and every
      other key looks up what it did before. */
  lemma RegisterThenGet<M>(reg: Registry<M>, key: Value, model: M)
    requires Register(reg, key, model).Success?
    ensures GetModel(Register(reg, key, model).value, key) == Some(model)
    ensures forall k | k != key :: GetModel(Register(reg, key, model).value, k) == GetModel(reg, k)
  {
  }

  // ---------------------------------------------------------------------------
  // Registries as process-wide state
  // ---------------------------------------------------------------------------

  /** `register` on the cached registry `regName`, updating the cache. */
  function RegisterIn<M>(inst: Instances<M>, regName: string, key: Value, model: M): (r: Result<Instances<M>, RegistryError>)
    requires regName in inst
    ensures r.Failure? <==> Register(inst[regName], key, model).Failure?
    ensures r.Success? ==> r.value.Keys == inst.Keys
    ensures r.Success? ==> r.value[regName] == Register(inst[regName], key, model).value
    ensures r.Success? ==> forall n | n in inst && n != regName :: r.value[n] == inst[n]
  {
    match Register(inst[regName], key, model)
    case Failure(e) => Failure(e)
    case Success(reg) => Success(inst[regName := reg])
  }

  /** `clear()` on the cached registry `regName`: the other registries keep
      their entries. */
  function ClearIn<M>(inst: Instances<M>, regName: string): (r: Instances<M>)
    requires regName in inst
    ensures r.Keys == inst.Keys
    ensures forall k :: GetModel(r[regName], k) == None
    ensures forall n | n in inst && n != regName :: r[n] == inst[n]
  {
    inst[regName := Clear(inst[regName])]
  }

  /** The default registry replaces a model registered again under the same
      name, and the last registration is the one looked up. */
  lemma DefaultRegistryOverwrites<M>(inst: Instances<M>, key: Value, first: M, second: M)
    requires DefaultName in inst && inst[DefaultName].options == DefaultOptions
    ensures RegisterIn(inst, DefaultName, key, first).Success?
    ensures var inst1 := RegisterIn(inst, DefaultName, key, first).value;
            RegisterIn(inst1, DefaultName, key, second).Success?
            && GetModel(RegisterIn(inst1, DefaultName, key, second).value[DefaultName], key) == Some(second)
  {
  }
}

=== FILE: scenarios.dfy ===
/** Concrete runs of the model with a string field type, the decisions the
    repository's own test suites pin down. */
module Scenarios {
  import opened Wrappers
  import opened JsValue
  import opened Field
  import opened Record
  import Model
  import Reg = Registry

  /** The base check of a string field (`z.string()`). */
  predicate IsString(v: Value) {
    v.Str?
  }

  function Opts(required: Option<Value>, nullable: Option<Value>): FieldOptions {
    NoOptions.(required := required, nullable := nullable)
  }

  const Yes := Some(Bool(true))
  const No := Some(Bool(false))

  /** A string field defined with `{ name: 'test' }`, validated with the
      extra options of each call. */
  lemma StringFieldTruthTable(capital: CaseFn)
    ensures var f := Define(0, IsString, NoOptions, NoOptions.(name := Some(Str("test"))), capital).0;
            && Validate(f, Str("test"), NoOptions)
            && Validate(f, Null, Opts(None, Yes))
            && !Validate(f, Undefined, Opts(Yes, Yes))
            && !Validate(f, Null, Opts(None, No))
            && Validate(f, Str("null"), Opts(None, Yes))
            && !Validate(f, Num(2), Opts(None, Yes))
            && !Validate(f, Null, Opts(Yes, None))
            && Validate(f, Str("null"), Opts(No, None))
            && Validate(f, Str("null"), Opts(Yes, None))
            && !Validate(f, Num(2), Opts(Yes, None))
            && Validate(f, Null, Opts(Yes, Yes))
            && Validate(f, Str("null"), Opts(No, Yes))
            && Validate(f, Str("null"), Opts(Yes, Yes))
            && !Validate(f, Num(2), Opts(Yes, Yes))
  {
  }

  /** A FieldSpec defined with a literal default exposes that default as its
      value and takes its name from the options. */
  lemma DefinedFieldValue(capital: CaseFn)
    ensures var (f, n) := Define(0, IsString, NoOptions, NoOptions.(name := Some(Str("test")), default := Some(Str("test"))), capital);
            n.name == Str("test") && SpecValue(f) == Str("test")
  {
  }

  /** The options of the two fields of the test model. */
  const IdOptions := NoOptions.(displayName := Some(Str("ID")))
  const NameOptions := NoOptions.(displayName := Some(Str("Name")), name := Some(Str("no-name")))

  /** The two FieldSpecs, as `Field({ displayName: 'ID' })` and
      `Field({ displayName: 'Name', name: 'no-name' })` define them. */
  const IdField := Field(0, IsString, Rest(IdOptions))
  const NameField := Field(1, IsString, Rest(NameOptions))

  lemma TestFieldsDefined(capital: CaseFn)
    ensures Define(0, IsString, NoOptions, IdOptions, capital).0 == IdField
    ensures Define(1, IsString, NoOptions, NameOptions, capital).0 == NameField
  {
  }

  function TestFields(): Obj<Field> {
    Rec(["id", "name"], map["id" := IdField, "name" := NameField])
  }

  function TestSpec(): Model.ModelSpec {
    Model.ModelSpec(TestFields(), map["name" := Str("test-model")], Reg.DefaultName)
  }

  function Values(id: Value, name: Value): map<string, Value> {
    map["id" := id, "name" := name]
  }

  function NameOpts(o: FieldOptions): map<string, FieldOptions> {
    map["name" := o]
  }

  /** `TestModel.validate({ id: '', name }, { name: options })` for the rows
      of the test suite. */
  lemma NonNullableAcceptsEmptyString()
    ensures Model.ValidateModel(TestSpec(), Values(Str(""), Str("")), NameOpts(Opts(None, No)))
  {
    TestModelValidation(Str(""), Str(""), Opts(None, No));
  }

  lemma NonNullableRejectsNull()
    ensures !Model.ValidateModel(TestSpec(), Values(Str(""), Null), NameOpts(Opts(None, No)))
  {
    TestModelValidation(Str(""), Null, Opts(None, No));
  }

  lemma NullableAcceptsNull()
    ensures Model.ValidateModel(TestSpec(), Values(Str(""), Null), NameOpts(Opts(None, Yes)))
  {
    TestModelValidation(Str(""), Null, Opts(None, Yes));
  }

  lemma NullableAcceptsEmptyString()
    ensures Model.ValidateModel(TestSpec(), Values(Str(""), Str("")), NameOpts(Opts(None, Yes)))
  {
    TestModelValidation(Str(""), Str(""), Opts(None, Yes));
  }

  lemma OptionalAcceptsUndefined()
    ensures Model.ValidateModel(TestSpec(), Values(Str(""), Undefined), NameOpts(Opts(No, None)))
  {
    TestModelValidation(Str(""), Undefined, Opts(No, None));
  }

  lemma RequiredRejectsUndefined()
    ensures !Model.ValidateModel(TestSpec(), Values(Str(""), Undefined), NameOpts(Opts(Yes, None)))
  {
    TestModelValidation(Str(""), Undefined, Opts(Yes, None));
  }

  lemma RequiredAcceptsString()
    ensures Model.ValidateModel(TestSpec(), Values(Str(""), Str("f")), NameOpts(Opts(Yes, None)))
  {
    TestModelValidation(Str(""), Str("f"), Opts(Yes, None));
  }

  lemma RequiredRejectsNumber()
    ensures !Model.ValidateModel(TestSpec(), Values(Str(""), Num(2)), NameOpts(Opts(Yes, None)))
  {
    TestModelValidation(Str(""), Num(2), Opts(Yes, None));
  }

  /** The test model accepts a pair of values iff each of its two fields does. */
  lemma TestModelValidation(id: Value, name: Value, o: FieldOptions)
    ensures Model.ValidateModel(TestSpec(), Values(id, name), NameOpts(o))
         == (Expected(IsString, Rest(IdOptions), id) && Expected(IsString, Spread(Rest(NameOptions), o), name))
  {
    var fs := TestFields().entries;
    assert Validate(fs["id"], id, NoOptions) == Expected(IsString, Rest(IdOptions), id);
    assert Model.OptionsAt(NameOpts(o), "id") == NoOptions;
    assert forall k | k in fs :: k == "id" || k == "name";
  }

  /** Building the test model from the start-up state names `id` after its key,
      keeps the explicit name `no-name`, and registers the model under
      `test-model` in the default registry. */
  lemma TestModelConstruction()
    ensures var w0 := Model.WorldState(map[0 := Define(0, IsString, NoOptions, IdOptions, s => s).1,
                                          1 := Define(1, IsString, NoOptions, NameOptions, s => s).1],
                                      Reg.Initial(), 2);
            Model.WorldOk(w0) &&
            var (w, r) := Model.Construct(w0, TestFields(), TestSpec().meta, None, s => s);
            && r == Success(TestSpec())
            && w.names[0].name == Str("id")
            && w.names[1].name == Str("no-name")
            && Reg.GetModel(w.registries[Reg.DefaultName], Str("test-model")) == Some(TestSpec())
  {
    var w0 := Model.WorldState(map[0 := Define(0, IsString, NoOptions, IdOptions, s => s).1,
                                   1 := Define(1, IsString, NoOptions, NameOptions, s => s).1],
                               Reg.Initial(), 2);
    assert w0.names[0].name == Undefined;
    assert w0.names[1].name == Str("no-name");
  }

  /** A model with an optional string field named `constructor`, validated
      with `{}`: the field reads the inherited `Object` function, which the
      string check refuses, so the model is invalid although nothing was
      passed. A field named `title` accepts the same empty record. */
  lemma InheritedMemberFailsValidation()
    ensures var f := Field(0, IsString, NoOptions);
            && !Model.ValidateModel(Model.ModelSpec(Rec(["constructor"], map["constructor" := f]), map[], Reg.DefaultName), map[], map[])
            && Model.ValidateModel(Model.ModelSpec(Rec(["title"], map["title" := f]), map[], Reg.DefaultName), map[], map[])
  {
    var f := Field(0, IsString, NoOptions);
    assert Model.ValueAt(map[], "constructor") == Func(Undefined);
    assert !Validate(f, Func(Undefined), NoOptions);
    assert Model.ValueAt(map[], "title") == Undefined;
    assert Validate(f, Undefined, NoOptions);
  }
}

=== FILE: schema.dfy ===
/** The fragment of zod that field validation is built from: a base type check
    wrapped in the `default`, `nullable`, `optional` and `refine` combinators. */
module Schema {
  import opened Wrappers
  import opened JsValue

  /** The base type check (`z.string()` in the tests), left abstract: it accepts
      or rejects a value and, when it accepts, outputs the value unchanged. */
  type BaseCheck = Value -> bool

  /** A schema built on top of the base type check. */
  datatype Rule =
    | Base
      /** `.default(f)`: an `undefined` input is replaced by `fallback` first. */
    | WithDefault(inner: Rule, fallback: Value)
      /** `.nullable()`: `null` is accepted as is. */
    | Nullable(inner: Rule)
      /** `.optional()`: `undefined` is accepted as is. */
    | Optional(inner: Rule)
      /** `.refine(v => v !== excluded)`: the inner output must differ from `excluded`. */
    | Refine(inner: Rule, excluded: Value)

  /** The defaults a rule may substitute for `undefined`. */
  function Fallbacks(r: Rule): set<Value> {
    match r
    case Base => {}
    case WithDefault(inner, fallback) => Fallbacks(inner) + {fallback}
    case Nullable(inner) => Fallbacks(inner)
    case Optional(inner) => Fallbacks(inner)
    case Refine(inner, _) => Fallbacks(inner)
  }

  /** `safeParse`: the parsed output, or None when the input is rejected.
      A rule never changes a defined input, and changes `undefined` only into
      one of its own defaults. */
  function Parse(base: BaseCheck, r: Rule, v: Value): (out: Option<Value>)
    ensures out.Some? && v != Undefined ==> out.value == v
    ensures out.Some? && out.value != v ==> v == Undefined && out.value in Fallbacks(r)
  {
    match r
    case Base => if base(v) then Some(v) else None
    case WithDefault(inner, fallback) => Parse(base, inner, if v == Undefined then fallback else v)
    case Nullable(inner) => if v == Null then Some(Null) else Parse(base, inner, v)
    case Optional(inner) => if v == Undefined then Some(Undefined) else Parse(base, inner, v)
    case Refine(inner, excluded) =>
      match Parse(base, inner, v)
      case None => None
      case Some(o) => if o != excluded then Some(o) else None
  }
}

=== FILE: wrappers.dfy ===
/** Failure-compatible wrappers: Option for values that may be absent,
    Result for operations that may throw. */
module Wrappers {

  datatype Option<+T> = None | Some(value: T) {

    /** The wrapped value, or `default` when there is none. */
    function GetOr(default: T): T {
      match this
      case Some(v) => v
      case None => default
    }
  }

  /** A computation that returns `value`, or throws `error`. */
  datatype Result<+R, +E> = Success(value: R) | Failure(error: E)
}
